=== FILE: README.md ===
# Email delivery and movie catalog, modelled in Dafny

This project models two parts of the movie-app-cloud system as pure functions over immutable data.

1. **The email service's delivery state machine.**
   - A send request arriving on the queue becomes a delivery record (`EmailLog`). The record is saved as PENDING with no attempts. Its first delivery attempt follows at once.
   - An attempt (`trySend`) does the following in order:
     - counts the attempt and stamps the time;
     - hands a message to the mail transport;
     - records SENT, or FAILED with the exception's class name and message;
     - saves the record.
   - A periodic sweep (`retryFailedEmails`) handles every FAILED record in turn. A record with ten or more attempts is CANCELLED and is not sent again. Every other FAILED record gets exactly one more attempt.
   - The mail transport, the store's ability to save and the clock are not code of the service. They are parameters (`EmailSender.Env`). The visible effects of an operation form a trace: records saved and messages handed to the transport.
   - The proofs cover:
     - the record invariant in every reachable state (`attemptCount` at most ten; CANCELLED only with ten);
     - with a store that never fails, the messages sent for a record match its attempts, so a record gets at most ten sends; when saves fail, a record is sent again by every sweep without bound;
     - SENT and CANCELLED as fixed points;
     - what a sweep changes and what it leaves alone;
     - three delivery scenarios: delivered at once, always refused, recovered on the fourth attempt.

2. **The REST API's catalog.**
   - `DirectorService` and `MovieService` operate on a catalog of directors and movies. The catalog has two tables, each with an identity sequence.
   - The filter query of `MovieRepository`.
   - The bean-validation rules of the two request bodies.
   - `GlobalExceptionHandler`, which turns each error into an HTTP response.
   - Every service call returns the catalog afterwards together with its value or its error (`CatalogModel.Outcome`).
   - The proofs cover:
     - every operation keeps the catalog invariant: names unique ignoring case, every movie's director stored, every entity valid;
     - reads see writes;
     - paging loses no match;
     - the report reads back as one line per movie;
     - the errors a client sees.

Both repositories are modelled by one `Table` type: rows keyed by store-assigned ids, plus a sequence counter that never reuses an id. The source's queries promise no result order. The model lists results in ascending id order, one fixed order; "## Left out" says which properties depend on that choice.

Three details of the delivery record, as the code has them:

- The record's `lastAttemptTime` is set at creation (`EmailSenderService.java:28`).
- The error message is also set on cancellation (`RetryScheduler.java:32`). It is therefore absent exactly when the record is SENT or still PENDING.
- `processEmail` returns nothing. Its result in the model is the record as the caller's variable holds it.

Two behaviours of the persistence layer shape what the services do, so they are modelled:

- Deleting a director cascades to that director's movies (`Director.java:28-29`).
- Bean validation runs on the entities when they are persisted (`Movie.java:26-34`, `Director.java:22-24`). An entity it refuses surfaces as a server error. Database column lengths are not modelled (see "## Left out").

## Model

| member | source | states |
|---|---|---|
| EmailLogModel.StatusNameRoundTrip | email-service/src/main/java/com/project/movieapi/emailservice/model/EmailLog.java:27 | The four status strings written to the `status` field are distinct and read back to the status written, so a query by status name selects exactly the records of that status. |
| EmailLogModel.Increment | email-service/src/main/java/com/project/movieapi/emailservice/service/EmailSenderService.java:36 | `attemptCount + 1` on a Java `int`: congruent to x+1 modulo 2^32, and strictly larger unless x is the largest `int`. |
| EmailStore.Save | email-service/src/main/java/com/project/movieapi/emailservice/service/EmailSenderService.java:30 | A record without an id gets a fresh one. A record with an id overwrites the stored one. Every other record is kept and no other id appears. |
| EmailStore.FindByStatusSpec | email-service/src/main/java/com/project/movieapi/emailservice/scheduler/RetryScheduler.java:26 | `findByStatus` returns every stored record at that status, each equal to its stored form, none twice, and nothing else. (The model lists them in ascending id order; see "## Left out".) |
| EmailSender.Attempted | email-service/src/main/java/com/project/movieapi/emailservice/service/EmailSenderService.java:36-55 | After an attempt: the count is one up, the time is now, and recipient, subject and content are unchanged. The status is SENT exactly when the transport delivered and FAILED exactly when it refused. The error is absent exactly when SENT, and on refusal it is the class name, ": " and the message. |
| EmailSender.TrySend | email-service/src/main/java/com/project/movieapi/emailservice/service/EmailSenderService.java:35-58 | The message from `noreply@moviereviews.com` to the record's recipient, subject and content is handed over first. A transport refusal never escapes. The save comes after it, and a failing save is reported with the store unchanged. Otherwise the saved record replaces only its own row. |
| EmailSender.ProcessEmail | email-service/src/main/java/com/project/movieapi/emailservice/service/EmailSenderService.java:21-33 | A PENDING record with no attempts and the given recipient, subject and content is saved under a fresh id before anything is sent. With both saves succeeding there are exactly three effects (save, send, save under the same id), and the record ends with one attempt, SENT or FAILED. A failing second save leaves the PENDING record stored. |
| EmailSender.Consume | email-service/src/main/java/com/project/movieapi/emailservice/consumer/EmailConsumer.java:15-18 | A queue message becomes a record whose content is the message body; when the saves succeed it is never left PENDING. |
| RetryScheduler.CancelledLog | email-service/src/main/java/com/project/movieapi/emailservice/scheduler/RetryScheduler.java:31-32 | Cancellation sets CANCELLED and the fixed message and changes no other field (attempt count and time are kept). |
| RetryScheduler.Handle | email-service/src/main/java/com/project/movieapi/emailservice/scheduler/RetryScheduler.java:28-39 | A record at ten or more attempts is cancelled and saved once, and never handed to the transport. Any other record gets exactly one send and no save besides the attempt's own. Only that record's row changes. |
| RetryScheduler.RetryAll | email-service/src/main/java/com/project/movieapi/emailservice/scheduler/RetryScheduler.java:28-39 | The loop over the query result keeps the store well formed, and with a store that never fails it is never cut short. |
| RetryScheduler.SweepMails | email-service/src/main/java/com/project/movieapi/emailservice/scheduler/RetryScheduler.java:24-40 | A sweep sends at most one message per FAILED record below the ceiling, and exactly one each when the store never fails. |
| EmailProofs.SettledStoreFacts | email-service/src/main/java/com/project/movieapi/emailservice/model/EmailLog.java:30-33 | In a state without PENDING records, every record has from 1 to 10 attempts, CANCELLED ones exactly 10, and the error message is absent exactly when SENT. |
| EmailProofs.NextKeepsInv | email-service/src/main/java/com/project/movieapi/emailservice/scheduler/RetryScheduler.java:29-38 | A FAILED record handled by a sweep stays within the invariant: one more attempt below the ceiling, cancellation unchanged otherwise. |
| EmailProofs.ProcessEmailKeepsInv | email-service/src/main/java/com/project/movieapi/emailservice/service/EmailSenderService.java:21-58 | `processEmail` keeps the record invariant whatever the transport and the store do; with a store that never fails it leaves nothing PENDING. |
| EmailProofs.SweepKeepsInv | email-service/src/main/java/com/project/movieapi/emailservice/scheduler/RetryScheduler.java:24-40 | A sweep keeps the record invariant and creates no PENDING record. |
| EmailProofs.RetryAllLeavesOthers | email-service/src/main/java/com/project/movieapi/emailservice/scheduler/RetryScheduler.java:28 | A record the query did not return is left exactly as it was, even by a sweep a store failure cuts short. |
| EmailProofs.RetryAllKeepsKeys | email-service/src/main/java/com/project/movieapi/emailservice/scheduler/RetryScheduler.java:28-39 | A sweep adds and removes no record. |
| EmailProofs.RetryAllHandlesEach | email-service/src/main/java/com/project/movieapi/emailservice/scheduler/RetryScheduler.java:28-39 | With a store that never fails, each record of the query result is handled exactly once, in order: its stored form afterwards is its cancellation or its next attempt. |
| EmailProofs.AnyOrderSweep | email-service/src/main/java/com/project/movieapi/emailservice/scheduler/RetryScheduler.java:26-39 | Whatever order the query lists the FAILED records in, each once, a sweep with a store that never fails turns each FAILED record into its cancellation or its next attempt, leaves every other record unchanged, and keeps the set of ids. |
| EmailProofs.SweepSpec | email-service/src/main/java/com/project/movieapi/emailservice/scheduler/RetryScheduler.java:24-40 | One sweep with a store that never fails: each FAILED record becomes its cancellation or its next attempt, every other record is unchanged, and the set of ids is kept. |
| EmailProofs.SweepLeavesUnfailed | email-service/src/main/java/com/project/movieapi/emailservice/scheduler/RetryScheduler.java:26-28 | SENT, PENDING and CANCELLED records are fixed points of a sweep. |
| EmailProofs.CancelOnlyAtCeiling | email-service/src/main/java/com/project/movieapi/emailservice/scheduler/RetryScheduler.java:29-31 | A record cancelled by a sweep was FAILED with at least ten attempts before it. |
| EmailProofs.CancelBelowCeilingImpossible | email-service/src/main/java/com/project/movieapi/emailservice/scheduler/RetryScheduler.java:29 | Handling records never cancels one below the ceiling. |
| EmailProofs.ReachableInv | email-service/src/main/java/com/project/movieapi/emailservice/scheduler/RetryScheduler.java:21-38 | Every state reached by any sequence of queue messages and sweeps keeps the invariant: `attemptCount` at most ten, CANCELLED only with ten, whatever the transport and the store do. (This bounds the stored count, not the sends; see `AtMostTenSends`.) |
| EmailProofs.MailsMatchAttempts | email-service/src/main/java/com/project/movieapi/emailservice/service/EmailSenderService.java:35-58 | Over any run of queue messages and sweeps with a store that never fails, the messages handed to the transport for a record number exactly the rise in its `attemptCount`: each `trySend` counts its attempt and sends once, and cancellation sends nothing. |
| EmailProofs.AtMostTenSends | email-service/src/main/java/com/project/movieapi/emailservice/scheduler/RetryScheduler.java:21-34 | With a store that never fails, a record is handed to the transport at most ten times in all, counted from its creation: the ceiling bounds sends, not only the stored count. |
| EmailProofs.FailingStoreResends | email-service/src/main/java/com/project/movieapi/emailservice/service/EmailSenderService.java:44-57 | When every save fails, each of n sweeps sends a FAILED record below the ceiling again while the store stays as it was: the message goes out before the save that would record the attempt, so sends are unbounded. |
| EmailProofs.ReachableSettled | email-service/src/main/java/com/project/movieapi/emailservice/service/EmailSenderService.java:21-58 | With a store that never fails, no reachable state holds a PENDING record, so every record has had one to ten attempts and has no error message exactly when SENT. |
| EmailProofs.TerminalStaysPut | email-service/src/main/java/com/project/movieapi/emailservice/scheduler/RetryScheduler.java:26-38 | Once SENT or CANCELLED, no later message or sweep changes any field of a record. |
| EmailProofs.SweepsLeaveTerminal | email-service/src/main/java/com/project/movieapi/emailservice/scheduler/RetryScheduler.java:26-28 | A SENT or CANCELLED record survives any number of sweeps unchanged. |
| EmailProofs.RefusedSweep | email-service/src/main/java/com/project/movieapi/emailservice/scheduler/RetryScheduler.java:37-38 | With a transport that always refuses, a sweep takes a FAILED record below the ceiling to FAILED with one more attempt. |
| EmailProofs.RefusedSweepsCount | email-service/src/main/java/com/project/movieapi/emailservice/scheduler/RetryScheduler.java:37-38 | With a transport that always refuses, n sweeps add n attempts as long as the ceiling is not passed. |
| EmailProofs.DeliveredAtOnce | email-service/src/main/java/com/project/movieapi/emailservice/service/EmailSenderService.java:21-58 | A transport that always delivers: one record, SENT, one attempt, no error message. |
| EmailProofs.FirstAttemptRefused | email-service/src/main/java/com/project/movieapi/emailservice/service/EmailSenderService.java:51-57 | A refused first attempt leaves one FAILED record with one attempt and an error message. |
| EmailProofs.RefusedUntilCancelled | email-service/src/main/java/com/project/movieapi/emailservice/scheduler/RetryScheduler.java:26-38 | From one refused attempt: nine sweeps take the count to ten, the tenth sweep cancels the record with ten attempts, and later sweeps change nothing. |
| EmailProofs.CancelledAtTenth | email-service/src/main/java/com/project/movieapi/emailservice/scheduler/RetryScheduler.java:29-34 | The sweep that finds a record FAILED with ten attempts cancels it. |
| EmailProofs.AlwaysRefusedIsCancelled | email-service/src/main/java/com/project/movieapi/emailservice/scheduler/RetryScheduler.java:26-38 | The always-refusing scenario from the request on: FAILED with one attempt, then as in `RefusedUntilCancelled`. |
| EmailProofs.RecoverySweep | email-service/src/main/java/com/project/movieapi/emailservice/scheduler/RetryScheduler.java:37-38 | With a transport that delivers only the fourth attempt, a sweep adds a refused attempt or, at the fourth, records SENT. |
| EmailProofs.RecoveredAfterThreeSweeps | email-service/src/main/java/com/project/movieapi/emailservice/scheduler/RetryScheduler.java:26-38 | From one refused attempt, the third sweep delivers: SENT, four attempts, no error message, and later sweeps leave it alone. |
| EmailProofs.ThreeRecoverySweeps | email-service/src/main/java/com/project/movieapi/emailservice/scheduler/RetryScheduler.java:26-38 | The three sweeps of the recovery scenario, step by step. |
| EmailProofs.RecoveryOnFourthAttempt | email-service/src/main/java/com/project/movieapi/emailservice/service/EmailSenderService.java:21-58 | The recovery scenario from the request on: FAILED after it, then as in `RecoveredAfterThreeSweeps`. |
| EmailProofs.RefusalRecordsCause | email-service/src/main/java/com/project/movieapi/emailservice/service/EmailSenderService.java:54 | A refusal by `MailSendException` with message "Server is down" is recorded as FAILED with an error holding both words. |
| Table.FindAfterWrites | spring-boot-rest-api/src/main/java/com/project/movieapi/springbootrestapi/service/MovieService.java:62-107 | Reads see writes: after `save` under an id, `findById` of that id finds the saved row; after `save` of a new entity it finds it under the id handed out; after `deleteById` it finds nothing there; at every other id it finds what it found before. |
| Table.Insert | spring-boot-rest-api/src/main/java/com/project/movieapi/springbootrestapi/service/MovieService.java:62 | Saving a new entity stores it under an id not used before, adds exactly one row, and keeps the others. |
| Table.Remove | spring-boot-rest-api/src/main/java/com/project/movieapi/springbootrestapi/service/MovieService.java:107 | `deleteById` removes exactly that row. |
| Table.Keys | spring-boot-rest-api/src/main/java/com/project/movieapi/springbootrestapi/service/MovieService.java:111 | `findAll` lists every stored id once, in ascending order. |
| Table.KeysCount | spring-boot-rest-api/src/main/java/com/project/movieapi/springbootrestapi/service/DirectorService.java:35 | `findAll` lists as many entries as there are rows. |
| CaseFold.EqualsIgnoreCaseIsFoldEquality | spring-boot-rest-api/src/main/java/com/project/movieapi/springbootrestapi/service/DirectorService.java:46 | `equalsIgnoreCase` (character-wise: equal, or equal upper-cased, or equal lower-cased after upper-casing) holds exactly when the lower-case folds are equal. |
| Requests.YearViolations | spring-boot-rest-api/src/main/java/com/project/movieapi/springbootrestapi/dto/movie/MovieRequestDTO.java:16-19 | The year is accepted exactly when present and within 1890..2115, and draws at most one violation. |
| Requests.MovieViolationsEmptyIffValid | spring-boot-rest-api/src/main/java/com/project/movieapi/springbootrestapi/dto/movie/MovieRequestDTO.java:13-25 | A movie request passes validation exactly when the title and genre are present with a visible character, the year is in 1890..2115, and the director id is present. |
| Requests.MovieViolationCauses | spring-boot-rest-api/src/main/java/com/project/movieapi/springbootrestapi/dto/movie/MovieRequestDTO.java:13-25 | Each fault is reported with its own field and message exactly when it is present: a missing or blank title, a missing, too early or too late year, a missing or blank genre, a missing director id. |
| Requests.OutOfRangeYears | spring-boot-rest-api/src/main/java/com/project/movieapi/springbootrestapi/dto/movie/MovieRequestDTO.java:17-18 | Years 1800 and 2200 are each refused for the year alone, with the Min and Max messages. |
| Requests.DirectorViolationsEmptyIffValid | spring-boot-rest-api/src/main/java/com/project/movieapi/springbootrestapi/dto/director/DirectorRequestDTO.java:11-15 | A director request passes exactly when the name is present, has a visible character and is at most 255 long; the country is free. |
| Requests.DirectorViolationCauses | spring-boot-rest-api/src/main/java/com/project/movieapi/springbootrestapi/dto/director/DirectorRequestDTO.java:11-13 | A missing or blank name is reported as mandatory, and one over 255 characters as too long, each exactly when it applies. |
| Requests.OverlongName | spring-boot-rest-api/src/main/java/com/project/movieapi/springbootrestapi/dto/director/DirectorRequestDTO.java:12 | A visible 300-character name is refused as too long, and for nothing else. |
| Requests.CorrectedMovieViolations | spring-boot-rest-api/src/main/java/com/project/movieapi/springbootrestapi/entity/Movie.java:26-28 | The movie rules with the entity's title bound added: accepted exactly when the rules as written accept and the title is at most 255 long. |
| ApiErrors.Respond | spring-boot-rest-api/src/main/java/com/project/movieapi/springbootrestapi/exception/GlobalExceptionHandler.java:15-49 | Every error gets 400, 404, 409 or 500. It gets 404 exactly for the three not-found errors, with their message as the body. It gets 409 exactly for a name conflict. It gets 400 exactly for upload, empty-file and validation failures. A validation failure's body is "Validation failed: " and the first field message. Without a field error the handler's `requireNonNull` throws, and the framework's default answer, 400 with its own body, stands. Everything without a handler gets 500. |
| MovieRepository.FindAllWithFiltersSpec | spring-boot-rest-api/src/main/java/com/project/movieapi/springbootrestapi/repository/MovieRepository.java:12-19 | The query lists exactly the movies that match every present filter, each once, in ascending id order. |
| MovieRepository.NoFilterMatchesAll | spring-boot-rest-api/src/main/java/com/project/movieapi/springbootrestapi/repository/MovieRepository.java:13-15 | With every filter absent, the query lists every stored movie. |
| MovieRepository.NothingMatchesNothingListed | spring-boot-rest-api/src/main/java/com/project/movieapi/springbootrestapi/repository/MovieRepository.java:12-15 | When no stored movie matches, the query lists nothing. |
| MovieRepository.MatchesIsConjunction | spring-boot-rest-api/src/main/java/com/project/movieapi/springbootrestapi/repository/MovieRepository.java:13-15 | A movie matches a filter exactly when it matches each of its three fields on its own; an absent field matches everything. |
| MovieRepository.NarrowingShrinks | spring-boot-rest-api/src/main/java/com/project/movieapi/springbootrestapi/repository/MovieRepository.java:13-15 | Adding filters never enlarges the result. |
| DirectorService.BuildMatchesRequestRules | spring-boot-rest-api/src/main/java/com/project/movieapi/springbootrestapi/entity/Director.java:22-24 | The entity's constraints and the request's constraints agree for directors: a request that passes validation can be persisted, and one that fails it could not be. |
| DirectorService.Create | spring-boot-rest-api/src/main/java/com/project/movieapi/springbootrestapi/service/DirectorService.java:22-32 | A name taken ignoring case is refused with "Director with name '…' already exists" and nothing changes. Otherwise the director is stored with exactly the given name and country under a fresh id, the movies are untouched, and the response echoes id, name and country. |
| DirectorService.GetAll | spring-boot-rest-api/src/main/java/com/project/movieapi/springbootrestapi/service/DirectorService.java:34-39 | One response per stored director, each the stored director's id, name and country, in ascending id order. |
| DirectorService.GetAllComplete | spring-boot-rest-api/src/main/java/com/project/movieapi/springbootrestapi/service/DirectorService.java:34-39 | Every stored director is listed. |
| DirectorService.Update | spring-boot-rest-api/src/main/java/com/project/movieapi/springbootrestapi/service/DirectorService.java:41-55 | A missing id is refused before the name is looked at. A name taken ignoring case and not the director's own (ignoring case) is refused. Otherwise the id is kept, only name and country are replaced, and the id sequence and the movies are untouched. Every refusal changes nothing. |
| DirectorService.Delete | spring-boot-rest-api/src/main/java/com/project/movieapi/springbootrestapi/service/DirectorService.java:57-62 | A missing id is refused with "Director not found" and nothing changes. Otherwise exactly that director is removed, together with their movies, and all else is kept. |
| MovieService.BuildUnderRequestRules | spring-boot-rest-api/src/main/java/com/project/movieapi/springbootrestapi/entity/Movie.java:26-34 | A movie request the request rules accept is refused by the entity's constraints only for a title over 255 characters; every request the corrected rules accept can be persisted. |
| MovieService.Create | spring-boot-rest-api/src/main/java/com/project/movieapi/springbootrestapi/service/MovieService.java:52-79 | A null director id and a director that is not stored are refused, saving nothing. Success comes exactly when the director is stored and the entity is valid. The new movie then gets a fresh id with the request's title, year and genre and that director, and the response mirrors it with the director's name. Directors never change. |
| MovieService.Update | spring-boot-rest-api/src/main/java/com/project/movieapi/springbootrestapi/service/MovieService.java:87-101 | The movie is looked up before the director, and every refusal changes nothing. On success the movie keeps its id and takes the request's title, year, genre and director, and the id sequence is kept. |
| MovieService.Delete | spring-boot-rest-api/src/main/java/com/project/movieapi/springbootrestapi/service/MovieService.java:103-108 | A missing id is refused with "Movie not found"; otherwise exactly that movie is removed and the rest is kept. |
| MovieService.GetAll | spring-boot-rest-api/src/main/java/com/project/movieapi/springbootrestapi/service/MovieService.java:110-115 | One response per stored movie, each that movie's response, in ascending id order. |
| MovieService.GetAllComplete | spring-boot-rest-api/src/main/java/com/project/movieapi/springbootrestapi/service/MovieService.java:110-115 | Every stored movie is listed. |
| MovieService.List | spring-boot-rest-api/src/main/java/com/project/movieapi/springbootrestapi/service/MovieService.java:117-138 | A negative page is refused before a size below one. Otherwise the list holds at most `size` entries, and entry i is id, title and year of the matching movie at position page·size+i. The page count is the least n with n·size covering all matches. |
| MovieService.EveryMatchOnItsPage | spring-boot-rest-api/src/main/java/com/project/movieapi/springbootrestapi/service/MovieService.java:117-138 | Paging loses no match: match j is entry j mod size of page j div size, and that page is below the page count. |
| MovieService.PastLastPageEmpty | spring-boot-rest-api/src/main/java/com/project/movieapi/springbootrestapi/service/MovieService.java:117-138 | A well-formed page request always succeeds, and a page at or past the page count it reports is empty. |
| MovieService.CreateEach | spring-boot-rest-api/src/main/java/com/project/movieapi/springbootrestapi/service/MovieService.java:166-174 | Every object is tried. Success plus failed equals the number of objects, and success counts exactly the creatable ones, each adding one movie. Stored movies and directors are kept. |
| MovieService.Upload | spring-boot-rest-api/src/main/java/com/project/movieapi/springbootrestapi/service/MovieService.java:158-183 | A non-array is refused with "Expected JSON array" and a parse failure with "Upload failed: invalid JSON". The movies created before a parse failure stay. A well-formed array succeeds with the tally of its objects. |
| Paging.TotalPages | spring-boot-rest-api/src/main/java/com/project/movieapi/springbootrestapi/service/MovieService.java:136 | The page count is the least n whose n pages cover all items. |
| Paging.PageOfPosition | spring-boot-rest-api/src/main/java/com/project/movieapi/springbootrestapi/service/MovieService.java:118-126 | Item j lies on page j div size at offset j mod size, and that page is a counted one. |
| Text.DecimalRoundTrip | spring-boot-rest-api/src/main/java/com/project/movieapi/springbootrestapi/service/MovieService.java:152 | The decimal text written for an id reads back to that id. |
| Text.SplitJoin | spring-boot-rest-api/src/main/java/com/project/movieapi/springbootrestapi/service/MovieService.java:150-154 | Lines without line separators, each written with a trailing separator, read back as the same lines. |
| MovieReport.Row | spring-boot-rest-api/src/main/java/com/project/movieapi/springbootrestapi/service/MovieService.java:152-153 | A report line starts with the movie's id and a comma. |
| MovieReport.GenerateReport | spring-boot-rest-api/src/main/java/com/project/movieapi/springbootrestapi/service/MovieService.java:140-156 | The report starts with the header line `Id,Title,Year,Genre,Director`. |
| MovieReport.ReportLines | spring-boot-rest-api/src/main/java/com/project/movieapi/springbootrestapi/service/MovieService.java:140-156 | Read back line by line, the report is the header followed by exactly one line per matching movie, in query order, as long as no stored text holds a line separator. |
| CatalogProofs.DirectorCreateKeepsConsistent | spring-boot-rest-api/src/main/java/com/project/movieapi/springbootrestapi/service/DirectorService.java:22-32 | Creating a director keeps names unique ignoring case, references intact and entities valid. |
| CatalogProofs.DirectorUpdateKeepsConsistent | spring-boot-rest-api/src/main/java/com/project/movieapi/springbootrestapi/service/DirectorService.java:41-55 | Updating a director keeps the catalog invariant, including renaming to its own name in another case. |
| CatalogProofs.DirectorDeleteKeepsConsistent | spring-boot-rest-api/src/main/java/com/project/movieapi/springbootrestapi/service/DirectorService.java:57-62 | Deleting a director, with the cascade, leaves no movie pointing at a missing director. |
| CatalogProofs.MovieCreateKeepsConsistent | spring-boot-rest-api/src/main/java/com/project/movieapi/springbootrestapi/service/MovieService.java:52-79 | Creating a movie keeps the catalog invariant. |
| CatalogProofs.MovieUpdateKeepsConsistent | spring-boot-rest-api/src/main/java/com/project/movieapi/springbootrestapi/service/MovieService.java:87-101 | Updating a movie keeps the catalog invariant. |
| CatalogProofs.MovieDeleteKeepsConsistent | spring-boot-rest-api/src/main/java/com/project/movieapi/springbootrestapi/service/MovieService.java:103-108 | Deleting a movie keeps the catalog invariant. |
| CatalogProofs.CreateEachKeepsConsistent | spring-boot-rest-api/src/main/java/com/project/movieapi/springbootrestapi/service/MovieService.java:166-174 | Creating the uploaded objects one by one keeps the catalog invariant. |
| CatalogProofs.UploadKeepsConsistent | spring-boot-rest-api/src/main/java/com/project/movieapi/springbootrestapi/service/MovieService.java:158-183 | An upload, even one cut short by a parse failure, keeps the catalog invariant. |
| CatalogProofs.DirectorCreateConflictIff | spring-boot-rest-api/src/main/java/com/project/movieapi/springbootrestapi/service/DirectorService.java:23-25 | `create` reports a conflict exactly when the name is present and some stored name equals it ignoring case. |
| CatalogProofs.DirectorUpdateConflictIff | spring-boot-rest-api/src/main/java/com/project/movieapi/springbootrestapi/service/DirectorService.java:45-48 | `update` of a stored director reports a conflict exactly when another director's name equals the new name ignoring case. |
| CatalogProofs.CreatedNameIsTaken | spring-boot-rest-api/src/main/java/com/project/movieapi/springbootrestapi/service/DirectorService.java:23-26 | Once a name is stored, creating it again in any case is a conflict. |
| CatalogProofs.CreatedMovieReadsBack | spring-boot-rest-api/src/main/java/com/project/movieapi/springbootrestapi/service/MovieService.java:52-85 | `getById` of a created movie returns the response `create` returned. |
| CatalogProofs.UpdatedMovieReadsBack | spring-boot-rest-api/src/main/java/com/project/movieapi/springbootrestapi/service/MovieService.java:81-101 | After a successful `update`, `getById` of that id returns the response `update` returned, and every other movie reads as before. |
| CatalogProofs.DeletedMovieIsGone | spring-boot-rest-api/src/main/java/com/project/movieapi/springbootrestapi/service/MovieService.java:103-108 | After a delete the movie is not found, and every other movie reads as before. |
| CatalogProofs.DeletedDirectorHasNoMovies | spring-boot-rest-api/src/main/java/com/project/movieapi/springbootrestapi/service/DirectorService.java:57-62 | After a director is deleted, filtering by that director lists nothing. |
| CatalogProofs.DuplicateDirectorIsConflict | spring-boot-rest-api/src/main/java/com/project/movieapi/springbootrestapi/exception/GlobalExceptionHandler.java:46-49 | A duplicate name ignoring case is answered 409 with the conflict message. |
| CatalogProofs.InvalidMovieRequestIsBadRequest | spring-boot-rest-api/src/main/java/com/project/movieapi/springbootrestapi/exception/GlobalExceptionHandler.java:15-19 | A movie request that is not well formed is answered 400, with body "Validation failed: " followed by the message of one of its own violations. |
| CatalogProofs.InvalidDirectorRequestIsBadRequest | spring-boot-rest-api/src/main/java/com/project/movieapi/springbootrestapi/exception/GlobalExceptionHandler.java:15-19 | The same for a director request. |
| CatalogProofs.MissingMovieIsNotFound | spring-boot-rest-api/src/main/java/com/project/movieapi/springbootrestapi/exception/GlobalExceptionHandler.java:26-29 | Reading, updating or deleting an id that is not stored is answered 404 "Movie not found". |
| CatalogProofs.MalformedUploadIsBadRequest | spring-boot-rest-api/src/main/java/com/project/movieapi/springbootrestapi/exception/GlobalExceptionHandler.java:36-39 | A malformed upload is answered 400; the body is "Expected JSON array" exactly when the top level is not an array. |
| CatalogProofs.LongTitlePassesValidationButFails | spring-boot-rest-api/src/main/java/com/project/movieapi/springbootrestapi/dto/movie/MovieRequestDTO.java:13-14 | A 256-letter title with a valid year, genre and stored director passes request validation, yet `create` fails and the client gets 500. |
| CatalogProofs.CorrectedRulesNeverServerError | spring-boot-rest-api/src/main/java/com/project/movieapi/springbootrestapi/entity/Movie.java:26-28 | Under the corrected rules, an accepted request is created exactly when its director is stored, and otherwise refused with 404. No bean constraint leads to a 500; database column lengths are left out. |

## Left out

- Concurrency: the queue consumer and the sweeper are modelled as whole operations, one after another. Races on one record are not modelled, because the code has no locking to model.
- The sweep's timer (`@Scheduled(fixedRate = 300000)`) is left out. A sweep is an explicit call, and the clock reading is a parameter.
- EmailSender.Env: one clock reading serves a whole operation. The source reads `LocalDateTime.now()` at creation (`EmailSenderService.java:28`) and again at each attempt (`EmailSenderService.java:37`), so a new record's creation time and first attempt time may differ, and so may the attempt times of the records of one sweep. In the model they are equal. No property proved here depends on the times.
- EmailStore.FindByStatusSpec: Elasticsearch's `findByStatus` promises no result order, and its ids are generated strings. The model lists results in ascending id order. The per-record facts about a sweep do not depend on this: `EmailProofs.AnyOrderSweep` holds for every order that lists each FAILED record once, and `RetryAllLeavesOthers`, `RetryAllKeepsKeys` and `RetryAllKeepsInv` put no condition on the order of the list. Which records a sweep cut short by a store failure has already handled does depend on the order, and the model fixes one.
- MovieService.EveryMatchOnItsPage: the filter query has no ORDER BY and the page request no sort, so the source promises no order, and separate page queries may skip or repeat rows. The lemma holds because the model gives every page request the same order. Paging completeness therefore assumes a stable order.
- RabbitMQ, Elasticsearch, SMTP (`JavaMailSender`) and the JPA/Hibernate machinery are not modelled. The transport outcome, the store's success and the time are parameters of `EmailSender.Env`. The relational tables are `Table`s with ascending-id result order, where the source promises none.
- Logging (`log.info`/`log.warn`/`log.error`) has no observable effect on state and is left out.
- EmailLogModel.EmailLog: the store-assigned id is a natural number rather than an Elasticsearch string id, and times are abstract clock readings rather than `LocalDateTime`.
- Jackson parsing in `upload` is reduced to `MovieService.UploadInput`. The input is one of three things: a top level that is not an array; a stream unreadable from the start; or the objects read, plus whether parsing broke after them. How JSON text maps to these cases is not modelled.
- MovieService.CreateEach: the `success` and `failed` counters are Java `int`s, which would wrap after 2^31 items. The model counts with unbounded naturals.
- CaseFold.EqualsIgnoreCase: only ASCII letters are folded. Java's Unicode case mapping, which also applies to `existsByNameIgnoreCase` through the database's `upper()`, is left out, and string lengths are counted in characters rather than UTF-16 units.
- CatalogProofs.CorrectedRulesNeverServerError: "never 500" holds for the bean-validation rules only. Database column lengths are left out. With a schema generated from the entities, a `String` field without `@Column` becomes a 255-character column. A genre or a director country over 255 characters would then pass every bean rule (`Movie.java:33-34`, `Director.java:27`) and fail at insert with a data-integrity error. No handler catches that error, so the client gets a 500. The schema's configuration is not part of this model, so the model stores such values; `CatalogProofs.LongGenreIsStored` states this. The same gap is in the success conditions of `MovieService.Create`, `MovieService.Update`, `DirectorService.Create`, `DirectorService.Update` and `MovieService.CreateEach`, which in the source would also count such an item as `failed`.
- The database's unique constraint on director names is left out. The services' own ignore-case check is modelled, and it already keeps names unique in the model.
- The genre filter compares strings exactly; database collation is not modelled.
- MovieReport.GenerateReport: the report is the text before UTF-8 encoding. The line separator is taken as "\n", where the code uses the platform's. Fields are written without CSV escaping, as the code does, so a title holding a comma or a line break breaks the format; `ReportLines` assumes no line breaks.
- The controllers, the gateway, security, the movie-reviews API and the UI are left out. The empty-file error is raised by the controller, so only its mapping (`ApiErrors.Respond`) is modelled.
- The commented-out RabbitMQ notification in `MovieService.create` is not modelled. `MovieServiceTest` still expects it and passes a constructor argument that no longer exists.
- Requests.MovieViolations and Requests.DirectorViolations: Hibernate Validator reports field errors in no fixed order. The model lists them in field order, and the error handler takes the first.
- EmailProofs.AtMostTenSends: the ten-send bound holds only with a store that never fails. `trySend` hands the message over (EmailSenderService.java:46) before the save that records the attempt (EmailSenderService.java:57). A failing save therefore leaves the stored count as it was, and the next sweep sends again. `EmailProofs.FailingStoreResends` shows this. Whether re-sending on a storage outage is intended cannot be told from the code, so it is recorded here and not as a defect.
- A failing second save in `processEmail` leaves a PENDING record that no sweep ever picks up. It is modelled (`EmailSender.ProcessEmail`), and the invariants allow it.
- The entity's own messages ("Title is mandatory", "Year is mandatory") are not modelled. An entity-level failure reaches no handler and surfaces as a 500 without body.

## Findings

| source | as written | input that shows it | evidently intended | confidence | as-written member | corrected member |
|---|---|---|---|---|---|---|
| spring-boot-rest-api/src/main/java/com/project/movieapi/springbootrestapi/dto/movie/MovieRequestDTO.java:13-14 | The request title carries only `@NotBlank`, while the `Movie` entity also carries `@Size(max = 255)` (Movie.java:26-28). A long title passes request validation and is then refused when the entity is persisted, with no handler for that error. | title of 256 letters `a`, year 2000, genre "Drama", a stored director's id | the request refused with 400 "Validation failed: size must be between 0 and 255" | medium, not executed | CatalogProofs.LongTitlePassesValidationButFails | CatalogProofs.CorrectedRulesNeverServerError |

=== FILE: api_errors.dfy ===
/** The errors the catalog services throw and `GlobalExceptionHandler`, which
    turns each into an HTTP response. Errors the handler has no method for
    fall through to the framework's default error response, status 500. */
module ApiErrors {
  import opened Wrappers

  datatype ApiError =
    | MovieNotFound(message: string)
    | DirectorNotFound(message: string)
      /** JPA's `EntityNotFoundException`, whose message may be null. */
    | EntityNotFound(detail: Option<string>)
    | ResourceAlreadyExists(message: string)
    | UploadFailed(message: string)
      /** Thrown by the upload endpoint for an empty file. */
    | EmptyFile(message: string)
      /** Request validation failed; the field errors' messages, in the order
          the binding result lists them. */
    | ValidationFailed(fieldMessages: seq<string>)
      /** A null id handed to a repository lookup. */
    | NullId
      /** An entity refused by the persistence layer's own bean validation. */
    | ConstraintViolation
      /** Paging parameters refused when the page request is built. */
    | BadPageRequest(message: string)

  /** A status code and a body; `None` stands for a null body from the
      handler, or the framework's own error body for a status 500. */
  datatype HttpResponse = HttpResponse(status: int, body: Option<string>)

  const BadRequest: int := 400
  const NotFound: int := 404
  const Conflict: int := 409
  const InternalServerError: int := 500

  const ValidationPrefix: string := "Validation failed: "

  /** The errors the handler answers with 404. */
  predicate IsNotFound(e: ApiError) {
    e.MovieNotFound? || e.DirectorNotFound? || e.EntityNotFound?
  }

  /** The errors that reach no handler method. */
  predicate IsUnhandled(e: ApiError) {
    e.NullId? || e.ConstraintViolation? || e.BadPageRequest?
  }

  /** The response for an error. Every error gets one of four statuses; a
      handled error's body is its own message, prefixed for a validation
      failure with "Validation failed: " and holding the first field
      error's message. A validation failure without a field error makes the
      handler's `requireNonNull` throw; the framework then falls back to its
      default handling of the original exception, which answers 400 with its
      own body. */
  function Respond(e: ApiError): (r: HttpResponse)
    ensures r.status in {BadRequest, NotFound, Conflict, InternalServerError}
    ensures r.status == NotFound <==> IsNotFound(e)
    ensures r.status == Conflict <==> e.ResourceAlreadyExists?
    ensures r.status == InternalServerError <==> IsUnhandled(e)
    ensures r.status == BadRequest <==> e.UploadFailed? || e.EmptyFile? || e.ValidationFailed?
    ensures r.status == InternalServerError ==> r.body.None?
    ensures e.ValidationFailed? && e.fieldMessages == [] ==> r.body.None?
    ensures (e.MovieNotFound? || e.DirectorNotFound? || e.ResourceAlreadyExists? || e.UploadFailed? || e.EmptyFile?)
      ==> r.body == Some(e.message)
    ensures e.EntityNotFound? ==> r.body == e.detail
    ensures e.ValidationFailed? && e.fieldMessages != [] ==>
      r.body == Some(ValidationPrefix + e.fieldMessages[0])
  {
    match e
    case ValidationFailed(messages) =>
      if messages == [] then HttpResponse(BadRequest, None)
      else HttpResponse(BadRequest, Some(ValidationPrefix + messages[0]))
    case EntityNotFound(detail) => HttpResponse(NotFound, detail)
    case MovieNotFound(message) => HttpResponse(NotFound, Some(message))
    case DirectorNotFound(message) => HttpResponse(NotFound, Some(message))
    case UploadFailed(message) => HttpResponse(BadRequest, Some(message))
    case EmptyFile(message) => HttpResponse(BadRequest, Some(message))
    case ResourceAlreadyExists(message) => HttpResponse(Conflict, Some(message))
    case NullId => HttpResponse(InternalServerError, None)
    case ConstraintViolation => HttpResponse(InternalServerError, None)
    case BadPageRequest(_) => HttpResponse(InternalServerError, None)
  }
}

=== FILE: case_fold.dfy ===
/** Case-insensitive comparison of names, as the director service uses it:
    Java's `String.equalsIgnoreCase` on the service side and the upper-cased
    comparison of the derived query `existsByNameIgnoreCase` on the store
    side. Only the ASCII letters have case here; every other character is
    its own case. */
module CaseFold {

  /** `Character.toLowerCase` on ASCII. */
  function LowerChar(c: char): (r: char)
    ensures !('A' <= r <= 'Z')
    ensures r == c || ('A' <= c <= 'Z' && r as int == c as int + 32)
  {
    if 'A' <= c <= 'Z' then (c as int + 32) as char else c
  }

  /** `Character.toUpperCase` on ASCII. */
  function UpperChar(c: char): (r: char)
    ensures !('a' <= r <= 'z')
    ensures r == c || ('a' <= c <= 'z' && r as int == c as int - 32)
  {
    if 'a' <= c <= 'z' then (c as int - 32) as char else c
  }

  /** The per-character test of `regionMatches(ignoreCase = true)`: the two
      characters are equal, or equal once upper-cased, or equal once the
      upper-cased forms are lower-cased. */
  predicate CharsMatch(a: char, b: char) {
    a == b || UpperChar(a) == UpperChar(b) || LowerChar(UpperChar(a)) == LowerChar(UpperChar(b))
  }

  /** `a.equalsIgnoreCase(b)` for a non-null `b`: same length and every
      position matches. */
  predicate EqualsIgnoreCase(a: string, b: string) {
    |a| == |b| && forall i :: 0 <= i < |a| ==> CharsMatch(a[i], b[i])
  }

  /** The case-folded form of a string: every letter lower-cased. Two names
      are the same name for the store when their folded forms are equal. */
  function Fold(s: string): (r: string)
    ensures |r| == |s|
    ensures forall i :: 0 <= i < |r| ==> !('A' <= r[i] <= 'Z')
    decreases |s|
  {
    if s == [] then [] else [LowerChar(s[0])] + Fold(s[1..])
  }

  /** Folding changes each character on its own. */
  lemma {:induction false} FoldAt(s: string, i: int)
    requires 0 <= i < |s|
    ensures Fold(s)[i] == LowerChar(s[i])
    decreases |s|
  {
    if i > 0 {
      FoldAt(s[1..], i - 1);
    }
  }

  lemma CharsMatchIsLowerEquality(a: char, b: char)
    ensures CharsMatch(a, b) <==> LowerChar(a) == LowerChar(b)
  {
  }

  /** Java's `equalsIgnoreCase` and equality of folded forms agree, so the
      service's check and the store's query speak of the same relation. */
  lemma EqualsIgnoreCaseIsFoldEquality(a: string, b: string)
    ensures EqualsIgnoreCase(a, b) <==> Fold(a) == Fold(b)
  {
    if EqualsIgnoreCase(a, b) {
      forall i | 0 <= i < |a|
        ensures Fold(a)[i] == Fold(b)[i]
      {
        FoldAt(a, i);
        FoldAt(b, i);
        CharsMatchIsLowerEquality(a[i], b[i]);
      }
    }
    if Fold(a) == Fold(b) {
      forall i | 0 <= i < |a|
        ensures CharsMatch(a[i], b[i])
      {
        FoldAt(a, i);
        FoldAt(b, i);
        CharsMatchIsLowerEquality(a[i], b[i]);
      }
    }
  }
}

=== FILE: catalog.dfy ===
/** The catalog's persistent state: the `directors` and `movies` tables, the
    constraints the persistence layer enforces on each entity, and the
    invariants that every service operation keeps. A movie refers to its
    director by id (the `director_id` join column). */
module CatalogModel {
  import opened Wrappers
  import opened Table
  import opened CaseFold
  import opened Requests
  import opened ApiErrors

  /** A stored director; its name is unique ignoring case. */
  datatype Director = Director(name: string, country: Option<string>)

  /** A stored movie. The year is a Java `Integer`, whose 32-bit bound is
      not modelled: the entity puts no range on it, and the 1890..2115 range
      is a rule of the request body only. */
  datatype Movie = Movie(title: string, year: int, genre: string, directorId: nat)

  datatype Catalog = Catalog(directors: Table<Director>, movies: Table<Movie>)

  /** The result of a service call: the catalog afterwards, and the value
      returned or the error thrown. */
  datatype Outcome<R> = Outcome(catalog: Catalog, result: Result<R, ApiError>)

  /** The messages of the two not-found errors. */
  const DirectorNotFoundMessage: string := "Director not found"
  const MovieNotFoundMessage: string := "Movie not found"

  /** The bean constraints on the `Director` entity, checked when it is
      persisted: a name that is not blank and at most 255 long. */
  predicate DirectorEntityValid(d: Director) {
    !Blank(d.name) && |d.name| <= MaxTextLength
  }

  /** The bean constraints on the `Movie` entity: a title that is not blank
      and at most 255 long, and a genre that is not blank. The database's
      column lengths are not modelled, so the genre has no bound here. */
  predicate MovieEntityValid(m: Movie) {
    !Blank(m.title) && |m.title| <= MaxTextLength && !Blank(m.genre)
  }

  /** No two directors have names equal ignoring case. */
  predicate UniqueNames(t: Table<Director>) {
    forall a, b :: a in t.rows && b in t.rows && a != b ==> Fold(t.rows[a].name) != Fold(t.rows[b].name)
  }

  /** Every movie's director is stored (the join column is non-null and a
      foreign key). */
  predicate Referential(c: Catalog) {
    forall k :: k in c.movies.rows ==> c.movies.rows[k].directorId in c.directors.rows
  }

  predicate EntitiesValid(c: Catalog) {
    && (forall k :: k in c.directors.rows ==> DirectorEntityValid(c.directors.rows[k]))
    && (forall k :: k in c.movies.rows ==> MovieEntityValid(c.movies.rows[k]))
  }

  /** The invariant of the catalog. */
  predicate Consistent(c: Catalog) {
    && Valid(c.directors) && Valid(c.movies)
    && UniqueNames(c.directors)
    && Referential(c)
    && EntitiesValid(c)
  }

  /** A fresh database: both identity sequences start at 1. */
  function EmptyCatalog(): (c: Catalog)
    ensures Consistent(c)
    ensures |c.directors.rows| == 0 && |c.movies.rows| == 0
  {
    Catalog(Empty(1), Empty(1))
  }
}

=== FILE: catalog_proofs.dfy ===
/** Properties of the catalog services taken together: every operation keeps
    the catalog consistent, the name checks mean what they say, reads see
    what writes stored, and each service error reaches the client with the
    status the exception handler gives it. */
module CatalogProofs {
  import opened Wrappers
  import opened Table
  import opened CaseFold
  import opened Requests
  import opened ApiErrors
  import opened CatalogModel
  import opened MovieRepository
  import DS = DirectorService
  import MS = MovieService

  // ---- The catalog stays consistent ---------------------------------------

  lemma DirectorCreateKeepsConsistent(c: Catalog, req: DirectorRequest)
    requires Consistent(c)
    ensures Consistent(DS.Create(c, req).catalog)
  {
    var r := DS.Create(c, req);
    if r.result.Ok? {
      var t := r.catalog.directors;
      var id := r.result.value.id;
      forall a, b | a in t.rows && b in t.rows && a != b
        ensures Fold(t.rows[a].name) != Fold(t.rows[b].name)
      {
        if a == id || b == id {
          var other := if a == id then b else a;
          assert !(Fold(c.directors.rows[other].name) == Fold(req.name.value));
        }
      }
    }
  }

  lemma DirectorUpdateKeepsConsistent(c: Catalog, id: int, req: DirectorRequest)
    requires Consistent(c)
    ensures Consistent(DS.Update(c, id, req).catalog)
  {
    var r := DS.Update(c, id, req);
    if r.result.Ok? {
      var t := r.catalog.directors;
      var current := c.directors.rows[id];
      var name := req.name.value;
      EqualsIgnoreCaseIsFoldEquality(current.name, name);
      forall a, b | a in t.rows && b in t.rows && a != b
        ensures Fold(t.rows[a].name) != Fold(t.rows[b].name)
      {
        if a == id || b == id {
          var other := if a == id then b else a;
          assert other in c.directors.rows && other != id;
          assert Fold(c.directors.rows[other].name) != Fold(name);
        }
      }
    }
  }

  /** Deleting a director keeps every movie's director stored, because the
      director's movies go with it. */
  lemma DirectorDeleteKeepsConsistent(c: Catalog, id: int)
    requires Consistent(c)
    ensures Consistent(DS.Delete(c, id).catalog)
  {
  }

  lemma MovieCreateKeepsConsistent(c: Catalog, req: MovieRequest)
    requires Consistent(c)
    ensures Consistent(MS.Create(c, req).catalog)
  {
  }

  lemma MovieUpdateKeepsConsistent(c: Catalog, id: int, req: MovieRequest)
    requires Consistent(c)
    ensures Consistent(MS.Update(c, id, req).catalog)
  {
  }

  lemma MovieDeleteKeepsConsistent(c: Catalog, id: int)
    requires Consistent(c)
    ensures Consistent(MS.Delete(c, id).catalog)
  {
  }

  lemma {:induction false} CreateEachKeepsConsistent(c: Catalog, items: seq<MovieRequest>)
    requires Consistent(c)
    ensures Consistent(MS.CreateEach(c, items).0)
    decreases |items|
  {
    if items != [] {
      var first := MS.Create(c, items[0]);
      MovieCreateKeepsConsistent(c, items[0]);
      CreateEachKeepsConsistent(first.catalog, items[1..]);
    }
  }

  lemma UploadKeepsConsistent(c: Catalog, input: MS.UploadInput)
    requires Consistent(c)
    ensures Consistent(MS.Upload(c, input).catalog)
  {
    if input.Objects? {
      CreateEachKeepsConsistent(c, input.items);
    }
  }

  // ---- Name checks --------------------------------------------------------

  /** `create` refuses a name exactly when a stored director has that name,
      compared as Java's `equalsIgnoreCase` compares. */
  lemma DirectorCreateConflictIff(c: Catalog, req: DirectorRequest)
    requires Valid(c.directors)
    ensures DS.Create(c, req).result.Err? && DS.Create(c, req).result.error.ResourceAlreadyExists? <==>
      req.name.Some? && exists k :: k in c.directors.rows && EqualsIgnoreCase(c.directors.rows[k].name, req.name.value)
  {
    if req.name.Some? {
      forall k | k in c.directors.rows {
        EqualsIgnoreCaseIsFoldEquality(c.directors.rows[k].name, req.name.value);
      }
    }
  }

  /** `update` of a stored director refuses a name exactly when ANOTHER
      director has it ignoring case; the director's own name, in any case, is
      always allowed back. */
  lemma DirectorUpdateConflictIff(c: Catalog, id: nat, req: DirectorRequest)
    requires Valid(c.directors) && UniqueNames(c.directors)
    requires id in c.directors.rows
    ensures DS.Update(c, id, req).result.Err? && DS.Update(c, id, req).result.error.ResourceAlreadyExists? <==>
      req.name.Some? && exists k :: k in c.directors.rows && k != id && Fold(c.directors.rows[k].name) == Fold(req.name.value)
  {
    if req.name.Some? {
      var current := c.directors.rows[id];
      EqualsIgnoreCaseIsFoldEquality(current.name, req.name.value);
      if DS.UpdateConflicts(c.directors, current, req.name) {
        var k :| k in c.directors.rows && Fold(c.directors.rows[k].name) == Fold(req.name.value);
        assert k != id;
      }
    }
  }

  /** Once a name has been stored, creating it again in any case is
      refused. */
  lemma CreatedNameIsTaken(c: Catalog, req: DirectorRequest, again: DirectorRequest)
    requires Valid(c.directors)
    requires DS.Create(c, req).result.Ok?
    requires again.name.Some? && EqualsIgnoreCase(again.name.value, req.name.value)
    ensures var c' := DS.Create(c, req).catalog;
      DS.Create(c', again) == Outcome(c', Err(ResourceAlreadyExists(DS.ConflictMessage(again.name.value))))
  {
    var r := DS.Create(c, req);
    EqualsIgnoreCaseIsFoldEquality(again.name.value, req.name.value);
    assert r.catalog.directors.rows[r.result.value.id].name == req.name.value;
  }

  // ---- Reads see writes ---------------------------------------------------

  /** A created movie reads back as the response `create` returned. */
  lemma CreatedMovieReadsBack(c: Catalog, req: MovieRequest)
    requires Consistent(c)
    requires MS.Create(c, req).result.Ok?
    ensures var r := MS.Create(c, req);
      MS.GetById(r.catalog, r.result.value.id) == Ok(r.result.value)
  {
    MovieCreateKeepsConsistent(c, req);
  }

  /** An updated movie reads back as the response `update` returned, and
      every other movie reads as before. */
  lemma UpdatedMovieReadsBack(c: Catalog, id: int, req: MovieRequest, other: nat)
    requires Consistent(c)
    requires MS.Update(c, id, req).result.Ok?
    ensures var r := MS.Update(c, id, req);
      MS.GetById(r.catalog, id) == Ok(r.result.value)
    ensures var r := MS.Update(c, id, req);
      other != id ==> MS.GetById(r.catalog, other) == MS.GetById(c, other)
  {
    MovieUpdateKeepsConsistent(c, id, req);
  }

  /** A deleted movie is not found afterwards, and neither delete nor read
      touches another movie. */
  lemma DeletedMovieIsGone(c: Catalog, id: nat, other: nat)
    requires Consistent(c)
    requires id in c.movies.rows && other in c.movies.rows && other != id
    ensures var c' := MS.Delete(c, id).catalog;
      && MS.GetById(c', id) == Err(MovieNotFound(MovieNotFoundMessage))
      && MS.GetById(c', other) == MS.GetById(c, other)
  {
    MovieDeleteKeepsConsistent(c, id);
  }

  /** After a director is deleted, no remaining movie lists them. */
  lemma DeletedDirectorHasNoMovies(c: Catalog, id: nat)
    requires Consistent(c)
    requires id in c.directors.rows
    ensures var c' := DS.Delete(c, id).catalog;
      FindAllWithFilters(c'.movies, MovieFilter(Some(id), None, None)) == []
  {
    var c' := DS.Delete(c, id).catalog;
    NothingMatchesNothingListed(c'.movies, MovieFilter(Some(id), None, None));
  }

  // ---- Errors as the client sees them -------------------------------------

  /** A director name already taken ignoring case is answered 409, with the
      conflict message naming the requested name. */
  lemma DuplicateDirectorIsConflict(c: Catalog, req: DirectorRequest, k: nat)
    requires Valid(c.directors)
    requires k in c.directors.rows && req.name.Some?
    requires EqualsIgnoreCase(c.directors.rows[k].name, req.name.value)
    ensures var r := DS.Create(c, req);
      && r.catalog == c
      && r.result.Err?
      && Respond(r.result.error) == HttpResponse(Conflict, Some("Director with name '" + req.name.value + "' already exists"))
  {
    EqualsIgnoreCaseIsFoldEquality(c.directors.rows[k].name, req.name.value);
  }

  /** A request refused by validation is answered 400, and the body names
      one of its own violations. */
  lemma InvalidMovieRequestIsBadRequest(req: MovieRequest)
    requires !ValidMovieRequest(req)
    ensures var v := MovieViolations(req);
      var resp := Respond(ValidationFailed(Messages(v)));
      && resp.status == BadRequest
      && exists i :: 0 <= i < |v| && resp.body == Some(ValidationPrefix + v[i].message)
  {
    MovieViolationsEmptyIffValid(req);
    var v := MovieViolations(req);
    assert Respond(ValidationFailed(Messages(v))).body == Some(ValidationPrefix + v[0].message);
  }

  lemma InvalidDirectorRequestIsBadRequest(req: DirectorRequest)
    requires !ValidDirectorRequest(req)
    ensures var v := DirectorViolations(req);
      var resp := Respond(ValidationFailed(Messages(v)));
      && resp.status == BadRequest
      && exists i :: 0 <= i < |v| && resp.body == Some(ValidationPrefix + v[i].message)
  {
    DirectorViolationsEmptyIffValid(req);
    var v := DirectorViolations(req);
    assert Respond(ValidationFailed(Messages(v))).body == Some(ValidationPrefix + v[0].message);
  }

  /** Reading, updating or deleting a movie id that is not stored is
      answered 404 "Movie not found". */
  lemma MissingMovieIsNotFound(c: Catalog, id: int, req: MovieRequest)
    requires Consistent(c)
    requires Find(c.movies, id).None?
    ensures Respond(MS.GetById(c, id).error) == HttpResponse(NotFound, Some(MovieNotFoundMessage))
    ensures Respond(MS.Update(c, id, req).result.error) == HttpResponse(NotFound, Some(MovieNotFoundMessage))
    ensures Respond(MS.Delete(c, id).result.error) == HttpResponse(NotFound, Some(MovieNotFoundMessage))
  {
  }

  /** A malformed upload is answered 400 with the parser's complaint. */
  lemma MalformedUploadIsBadRequest(c: Catalog, input: MS.UploadInput)
    requires Valid(c.movies)
    requires input.NotAnArray? || input.Unreadable? || (input.Objects? && input.brokenAfter)
    ensures var r := MS.Upload(c, input).result;
      && r.Err?
      && Respond(r.error).status == BadRequest
      && (Respond(r.error).body == Some(MS.ExpectedArrayMessage) <==> input.NotAnArray?)
  {
  }

  // ---- The title length the request does not bound ------------------------

  /** A title of 256 letters. */
  function LongTitle(): (t: string)
    ensures |t| == MaxTextLength + 1 && HasVisibleChar(t)
  {
    var t := seq(MaxTextLength + 1, i => 'a');
    assert t[0] > ' ';
    t
  }

  /** As written, the request rules accept a 256-letter title that the
      `Movie` entity refuses, so a request that passes validation and names a
      stored director is answered with a server error, not a 400. */
  lemma LongTitlePassesValidationButFails(c: Catalog, directorId: nat)
    requires Consistent(c)
    requires directorId in c.directors.rows
    ensures var req := MovieRequest(Some(LongTitle()), Some(2000), Some("Drama"), Some(directorId));
      && MovieViolations(req) == []
      && MS.Create(c, req) == Outcome(c, Err(ConstraintViolation))
      && Respond(MS.Create(c, req).result.error).status == InternalServerError
  {
    var req := MovieRequest(Some(LongTitle()), Some(2000), Some("Drama"), Some(directorId));
    assert "Drama"[0] > ' ';
    MovieViolationsEmptyIffValid(req);
  }

  /** The model checks the entities' bean constraints only: a movie whose
      genre is longer than any default database column is accepted by the
      request rules, corrected or not, and stored. Column lengths are not
      part of this model. */
  lemma LongGenreIsStored(c: Catalog, directorId: nat)
    requires Consistent(c)
    requires directorId in c.directors.rows
    ensures var req := MovieRequest(Some("Heat"), Some(1995), Some(seq(300, i => 'g')), Some(directorId));
      && CorrectedMovieViolations(req) == []
      && MS.Create(c, req).result.Ok?
  {
    var req := MovieRequest(Some("Heat"), Some(1995), Some(seq(300, i => 'g')), Some(directorId));
    assert "Heat"[0] > ' ' && req.genre.value[0] > ' ';
    MovieViolationsEmptyIffValid(req);
  }

  /** With the title bounded in the request as in the entity, a request the
      rules accept is stored whenever its director is, and otherwise refused
      with 404 "Director not found": it never ends in a server error. */
  lemma CorrectedRulesNeverServerError(c: Catalog, req: MovieRequest)
    requires Consistent(c)
    requires CorrectedMovieViolations(req) == []
    ensures MS.Create(c, req).result.Ok? <==> Find(c.directors, req.directorId.value).Some?
    ensures MS.Create(c, req).result.Err? ==>
      Respond(MS.Create(c, req).result.error) == HttpResponse(NotFound, Some(DirectorNotFoundMessage))
  {
    MovieViolationsEmptyIffValid(req);
    NotBlankIsVisible(req.title);
    NotBlankIsVisible(req.genre);
  }
}

=== FILE: director_service.dfy ===
/** `DirectorService`: creating, listing, renaming and deleting directors,
    with names unique ignoring case. */
module DirectorService {
  import opened Wrappers
  import opened Table
  import opened CaseFold
  import opened Requests
  import opened ApiErrors
  import opened CatalogModel

  datatype DirectorResponse = DirectorResponse(id: nat, name: string, country: Option<string>)

  /** The message of the conflict error for a name already taken. */
  function ConflictMessage(name: string): string {
    "Director with name '" + name + "' already exists"
  }

  /** `toResponseDTO`: the id, name and country of a stored director. */
  function ToResponse(id: nat, d: Director): (r: DirectorResponse)
    ensures r.id == id && r.name == d.name && r.country == d.country
  {
    DirectorResponse(id, d.name, d.country)
  }

  /** `existsByNameIgnoreCase(name)`: some stored director has this name
      ignoring case. A null name matches no stored director. */
  predicate ExistsByNameIgnoreCase(t: Table<Director>, name: Option<string>) {
    name.Some? && exists k :: k in t.rows && Fold(t.rows[k].name) == Fold(name.value)
  }

  /** The director a request describes, when it can be persisted. */
  function Build(req: DirectorRequest): (r: Option<Director>)
    ensures r.Some? <==> req.name.Some? && DirectorEntityValid(Director(req.name.value, req.country))
    ensures r.Some? ==> r.value == Director(req.name.value, req.country)
  {
    if req.name.Some? && DirectorEntityValid(Director(req.name.value, req.country)) then
      Some(Director(req.name.value, req.country))
    else None
  }

  /** The request rules and the entity rules agree for directors: a request
      that passes validation can always be persisted, and one that fails it
      never could be. */
  lemma BuildMatchesRequestRules(req: DirectorRequest)
    ensures Build(req).Some? <==> DirectorViolations(req) == []
  {
  }

  /** `create(dto)`: refuse a name already taken ignoring case, then store a
      new director with the given name and country. Nothing else changes. */
  function Create(c: Catalog, req: DirectorRequest): (r: Outcome<DirectorResponse>)
    requires Valid(c.directors)
    ensures ExistsByNameIgnoreCase(c.directors, req.name) ==>
      r == Outcome(c, Err(ResourceAlreadyExists(ConflictMessage(req.name.value))))
    ensures r.result.Ok? <==> !ExistsByNameIgnoreCase(c.directors, req.name) && Build(req).Some?
    ensures r.result.Err? ==> r.catalog == c
    ensures r.result.Ok? ==>
      && r.result.value.id !in c.directors.rows
      && r.catalog.directors.rows == c.directors.rows[r.result.value.id := Director(req.name.value, req.country)]
      && r.catalog.movies == c.movies
      && r.result.value == DirectorResponse(r.result.value.id, req.name.value, req.country)
      && Valid(r.catalog.directors)
  {
    if ExistsByNameIgnoreCase(c.directors, req.name) then
      Outcome(c, Err(ResourceAlreadyExists(ConflictMessage(req.name.value))))
    else
      match Build(req)
      case None => Outcome(c, Err(ConstraintViolation))
      case Some(d) =>
        var (t, id) := Insert(c.directors, d);
        Outcome(c.(directors := t), Ok(ToResponse(id, d)))
  }

  /** `getAll()`: one response per stored director, in ascending id order. */
  function GetAll(c: Catalog): (r: seq<DirectorResponse>)
    requires Valid(c.directors)
    ensures |r| == |c.directors.rows|
    ensures forall i :: 0 <= i < |r| ==>
      r[i].id in c.directors.rows && r[i] == ToResponse(r[i].id, c.directors.rows[r[i].id])
    ensures forall i, j :: 0 <= i < j < |r| ==> r[i].id < r[j].id
  {
    var ks := Keys(c.directors);
    KeysCount(c.directors);
    seq(|ks|, i requires 0 <= i < |ks| => ToResponse(ks[i], c.directors.rows[ks[i]]))
  }

  /** Every stored director is listed by `getAll`. */
  lemma GetAllComplete(c: Catalog, k: nat)
    requires Valid(c.directors)
    requires k in c.directors.rows
    ensures exists i :: 0 <= i < |GetAll(c)| && GetAll(c)[i] == ToResponse(k, c.directors.rows[k])
  {
    var ks := Keys(c.directors);
    var i :| 0 <= i < |ks| && ks[i] == k;
    assert GetAll(c)[i] == ToResponse(k, c.directors.rows[k]);
  }

  /** The update's name check: the new name is taken ignoring case, and it is
      not the director's own name ignoring case. */
  predicate UpdateConflicts(t: Table<Director>, current: Director, name: Option<string>) {
    ExistsByNameIgnoreCase(t, name) && !EqualsIgnoreCase(current.name, name.value)
  }

  /** `update(id, dto)`: a missing id is refused before the name is looked
      at; a name taken by another director is refused; otherwise the
      director keeps its id and takes the new name and country. */
  function Update(c: Catalog, id: int, req: DirectorRequest): (r: Outcome<DirectorResponse>)
    requires Valid(c.directors)
    ensures Find(c.directors, id).None? ==> r == Outcome(c, Err(DirectorNotFound(DirectorNotFoundMessage)))
    ensures Find(c.directors, id).Some? && UpdateConflicts(c.directors, c.directors.rows[id], req.name) ==>
      r == Outcome(c, Err(ResourceAlreadyExists(ConflictMessage(req.name.value))))
    ensures r.result.Ok? <==>
      Find(c.directors, id).Some? && !UpdateConflicts(c.directors, c.directors.rows[id], req.name) && Build(req).Some?
    ensures r.result.Err? ==> r.catalog == c
    ensures r.result.Ok? ==>
      && r.catalog.directors.rows == c.directors.rows[id := Director(req.name.value, req.country)]
      && r.catalog.directors.next == c.directors.next
      && r.catalog.movies == c.movies
      && r.result.value == DirectorResponse(id, req.name.value, req.country)
  {
    match Find(c.directors, id)
    case None => Outcome(c, Err(DirectorNotFound(DirectorNotFoundMessage)))
    case Some(current) =>
      if UpdateConflicts(c.directors, current, req.name) then
        Outcome(c, Err(ResourceAlreadyExists(ConflictMessage(req.name.value))))
      else
        match Build(req)
        case None => Outcome(c, Err(ConstraintViolation))
        case Some(d) =>
          Outcome(c.(directors := Put(c.directors, id, d)), Ok(ToResponse(id, d)))
  }

  /** The movies whose director is not `d`. */
  function MoviesWithout(t: Table<Movie>, d: nat): (r: Table<Movie>)
    ensures r.next == t.next
    ensures forall k :: k in r.rows <==> k in t.rows && t.rows[k].directorId != d
    ensures forall k :: k in r.rows ==> r.rows[k] == t.rows[k]
  {
    Table(map k | k in t.rows && t.rows[k].directorId != d :: t.rows[k], t.next)
  }

  /** `delete(id)`: a missing id is refused and nothing changes; otherwise
      that director is removed, and with it (the association cascades) every
      movie of theirs. */
  function Delete(c: Catalog, id: int): (r: Outcome<()>)
    ensures r.result.Err? <==> Find(c.directors, id).None?
    ensures r.result.Err? ==> r == Outcome(c, Err(DirectorNotFound(DirectorNotFoundMessage)))
    ensures r.result.Ok? ==>
      && r.catalog.directors.rows.Keys == c.directors.rows.Keys - {id as nat}
      && (forall k :: k in r.catalog.directors.rows ==> r.catalog.directors.rows[k] == c.directors.rows[k])
      && (forall k :: k in r.catalog.movies.rows <==> k in c.movies.rows && c.movies.rows[k].directorId != id)
      && (forall k :: k in r.catalog.movies.rows ==> r.catalog.movies.rows[k] == c.movies.rows[k])
  {
    if Find(c.directors, id).None? then Outcome(c, Err(DirectorNotFound(DirectorNotFoundMessage)))
    else
      Outcome(Catalog(Remove(c.directors, id), MoviesWithout(c.movies, id)), Ok(()))
  }
}

=== FILE: email_log.dfy ===
/** The delivery record of the email service (`EmailLog`), one per send
    request, and the 32-bit arithmetic of its attempt counter. */
module EmailLogModel {
  import opened Wrappers

  /** The `status` field is a plain string in the source, but only these four
      values are ever written to it. */
  datatype Status = Pending | Sent | Failed | Cancelled

  /** The string stored in the index for each status. */
  function StatusName(s: Status): (name: string)
    ensures |name| > 0
  {
    match s
    case Pending => "PENDING"
    case Sent => "SENT"
    case Failed => "FAILED"
    case Cancelled => "CANCELLED"
  }

  /** Reads a stored status string back; any other string is not a status. */
  function ParseStatus(name: string): (r: Option<Status>)
    ensures r.Some? ==> StatusName(r.value) == name
  {
    if name == "PENDING" then Some(Pending)
    else if name == "SENT" then Some(Sent)
    else if name == "FAILED" then Some(Failed)
    else if name == "CANCELLED" then Some(Cancelled)
    else None
  }

  /** Status names are distinct and read back to the status written, so a
      query by status name selects exactly the records with that status. */
  lemma StatusNameRoundTrip(s: Status)
    ensures ParseStatus(StatusName(s)) == Some(s)
  {
    match s
    case Pending =>
    case Sent => assert StatusName(s) != "PENDING";
    case Failed => assert StatusName(s) != "PENDING" && StatusName(s) != "SENT";
    case Cancelled =>
      assert StatusName(s) != "PENDING" && StatusName(s) != "SENT" && StatusName(s) != "FAILED";
  }

  /** Java's `int`. */
  const MinInt32: int := -0x8000_0000
  const MaxInt32: int := 0x7FFF_FFFF
  type Int32 = x: int | MinInt32 <= x <= MaxInt32

  /** `x + 1` on a Java `int`: two's-complement wrap-around at the top. */
  function Increment(x: Int32): (r: Int32)
    ensures (r - x - 1) % 0x1_0000_0000 == 0
    ensures x < MaxInt32 ==> r > x
  {
    if x == MaxInt32 then MinInt32 else x + 1
  }

  /** One delivery record. `id` is absent until the store assigns one;
      `errorMessage` is nullable; `attemptCount` is a primitive `int`;
      `lastAttemptTime` is stamped at creation and at every attempt, so it is
      never absent. Times are abstract clock readings. */
  datatype EmailLog = EmailLog(
    id: Option<nat>,
    recipient: string,
    subject: string,
    content: string,
    status: Status,
    errorMessage: Option<string>,
    attemptCount: Int32,
    lastAttemptTime: nat)
}

=== FILE: email_proofs.dfy ===
/** Properties of the delivery state machine: the record invariant kept by
    every operation, what a sweep does to each record, terminal states, and
    three delivery scenarios: delivered at once, always refused, and
    recovered on the fourth attempt. */
module EmailProofs {
  import opened Wrappers
  import opened Table
  import opened EmailLogModel
  import opened EmailStore
  import opened EmailSender
  import opened RetryScheduler

  /** The states a stored record can be in. A PENDING record exists only when
      the save after its first attempt failed. */
  predicate LogInv(log: EmailLog) {
    && 0 <= log.attemptCount <= MaxAttempts
    && match log.status
       case Pending => log.attemptCount == 0 && log.errorMessage.None?
       case Sent => 1 <= log.attemptCount && log.errorMessage.None?
       case Failed => 1 <= log.attemptCount && log.errorMessage.Some?
       case Cancelled => log.attemptCount == MaxAttempts && log.errorMessage == Some(CancelMessage)
  }

  predicate StoreInv(s: Store) {
    WellFormed(s) && forall k :: k in s.rows ==> LogInv(s.rows[k])
  }

  /** No record is left PENDING: what a store that never fails guarantees. */
  predicate NoPending(s: Store) {
    forall k :: k in s.rows ==> s.rows[k].status != Pending
  }

  /** In a state without PENDING records, every record has had between one
      and ten attempts, a cancelled one exactly ten, and the error message is
      absent exactly when the record was sent. */
  lemma SettledStoreFacts(s: Store, k: nat)
    requires StoreInv(s) && NoPending(s) && k in s.rows
    ensures 1 <= s.rows[k].attemptCount <= MaxAttempts
    ensures s.rows[k].status == Cancelled ==> s.rows[k].attemptCount == MaxAttempts
    ensures s.rows[k].errorMessage.None? <==> s.rows[k].status == Sent
  {
  }

  /** A FAILED record that is handled by a sweep stays within the invariant:
      below the ceiling the count rises by one and cannot pass ten; at the
      ceiling it is cancelled with exactly ten attempts. */
  lemma NextKeepsInv(log: EmailLog, env: Env)
    requires LogInv(log) && log.status == Failed
    ensures LogInv(Next(log, env)) && Next(log, env).status != Pending
    ensures log.attemptCount < MaxAttempts ==> Next(log, env).attemptCount == log.attemptCount + 1
    ensures log.attemptCount >= MaxAttempts ==> Next(log, env) == CancelledLog(log)
  {
  }

  /** `processEmail` keeps the invariant, whatever the transport and the
      store do, and with a store that never fails leaves nothing PENDING. */
  lemma ProcessEmailKeepsInv(s: Store, to: string, subject: string, content: string, env: Env)
    requires StoreInv(s)
    ensures StoreInv(ProcessEmail(s, to, subject, content, env).store)
    ensures Healthy(env) && NoPending(s) ==> NoPending(ProcessEmail(s, to, subject, content, env).store)
  {
    var r := ProcessEmail(s, to, subject, content, env);
    if !r.storeFailed {
      assert LogInv(r.log);
    } else if |r.effects| > 0 {
      assert LogInv(r.effects[0].log);
    }
  }

  /** Handling the records of a status query keeps the invariant. */
  lemma {:induction false} RetryAllKeepsInv(s: Store, logs: seq<EmailLog>, env: Env)
    requires StoreInv(s)
    requires forall i :: 0 <= i < |logs| ==>
      logs[i].id.Some? && logs[i].status == Failed && LogInv(logs[i])
    ensures StoreInv(RetryAll(s, logs, env).store)
    ensures NoPending(s) ==> NoPending(RetryAll(s, logs, env).store)
    decreases |logs|
  {
    if logs != [] {
      var a := Handle(s, logs[0], env);
      NextKeepsInv(logs[0], env);
      if !a.storeFailed {
        assert StoreInv(a.store);
        RetryAllKeepsInv(a.store, logs[1..], env);
      }
    }
  }

  /** A sweep keeps the invariant and never creates a PENDING record, whatever
      the transport and the store do. */
  lemma SweepKeepsInv(s: Store, env: Env)
    requires StoreInv(s)
    ensures StoreInv(RetryFailedEmails(s, env).store)
    ensures NoPending(s) ==> NoPending(RetryFailedEmails(s, env).store)
  {
    FindByStatusSpec(s, Failed);
    var logs := FindByStatus(s, Failed);
    forall i | 0 <= i < |logs|
      ensures LogInv(logs[i])
    {
      assert s.rows[logs[i].id.value] == logs[i];
    }
    RetryAllKeepsInv(s, logs, env);
  }

  /** A record that the query did not return is left exactly as it was, even
      when the sweep is cut short by a store failure. */
  lemma {:induction false} RetryAllLeavesOthers(s: Store, logs: seq<EmailLog>, env: Env, k: nat)
    requires WellFormed(s)
    requires forall i :: 0 <= i < |logs| ==> logs[i].id.Some? && logs[i].id != Some(k)
    requires k in s.rows
    ensures k in RetryAll(s, logs, env).store.rows
    ensures RetryAll(s, logs, env).store.rows[k] == s.rows[k]
    decreases |logs|
  {
    if logs != [] {
      var a := Handle(s, logs[0], env);
      if !a.storeFailed {
        RetryAllLeavesOthers(a.store, logs[1..], env, k);
      }
    }
  }

  /** The records a sweep handles are all already stored, so a sweep adds no
      record. */
  lemma {:induction false} RetryAllKeepsKeys(s: Store, logs: seq<EmailLog>, env: Env)
    requires WellFormed(s)
    requires forall i :: 0 <= i < |logs| ==> logs[i].id.Some? && logs[i].id.value in s.rows
    ensures RetryAll(s, logs, env).store.rows.Keys == s.rows.Keys
    decreases |logs|
  {
    if logs != [] {
      var a := Handle(s, logs[0], env);
      if !a.storeFailed {
        assert a.store.rows.Keys == s.rows.Keys;
        RetryAllKeepsKeys(a.store, logs[1..], env);
      }
    }
  }

  /** With a store that never fails, every record of the query result is
      handled exactly once: its stored form afterwards is `Next` of it. */
  lemma {:induction false} RetryAllHandlesEach(s: Store, logs: seq<EmailLog>, env: Env, i: nat)
    requires WellFormed(s) && Healthy(env)
    requires IdsDistinct(logs) && i < |logs|
    requires forall j :: 0 <= j < |logs| ==> logs[j].id.value in s.rows
    ensures logs[i].id.value in RetryAll(s, logs, env).store.rows
    ensures RetryAll(s, logs, env).store.rows[logs[i].id.value] == Next(logs[i], env)
    decreases |logs|
  {
    var a := Handle(s, logs[0], env);
    assert !a.storeFailed;
    var tail := logs[1..];
    assert IdsDistinct(tail) by {
      forall j | 0 <= j < |tail| ensures tail[j] == logs[j + 1] { }
    }
    if i == 0 {
      forall j | 0 <= j < |tail|
        ensures tail[j].id.Some? && tail[j].id != Some(logs[0].id.value)
      {
        assert tail[j] == logs[j + 1];
      }
      RetryAllLeavesOthers(a.store, tail, env, logs[0].id.value);
    } else {
      assert tail[i - 1] == logs[i];
      RetryAllHandlesEach(a.store, tail, env, i - 1);
    }
  }

  /** A sweep over the FAILED records listed in any order, each once, with a
      store that never fails: each FAILED record becomes `Next` of itself,
      every other record is unchanged, and no record is added or removed. The
      status query promises no order, so this is what a sweep guarantees. */
  lemma AnyOrderSweep(s: Store, logs: seq<EmailLog>, env: Env, k: nat)
    requires WellFormed(s) && Healthy(env) && k in s.rows
    requires IdsDistinct(logs)
    requires forall i :: 0 <= i < |logs| ==>
      logs[i].status == Failed && logs[i].id.value in s.rows && s.rows[logs[i].id.value] == logs[i]
    requires s.rows[k].status == Failed ==> s.rows[k] in logs
    ensures RetryAll(s, logs, env).store.rows.Keys == s.rows.Keys
    ensures RetryAll(s, logs, env).store.rows[k] ==
      if s.rows[k].status == Failed then Next(s.rows[k], env) else s.rows[k]
  {
    RetryAllKeepsKeys(s, logs, env);
    if s.rows[k].status == Failed {
      var i :| 0 <= i < |logs| && logs[i] == s.rows[k];
      RetryAllHandlesEach(s, logs, env, i);
    } else {
      forall i | 0 <= i < |logs|
        ensures logs[i].id != Some(k)
      {
        assert s.rows[logs[i].id.value] == logs[i];
      }
      RetryAllLeavesOthers(s, logs, env, k);
    }
  }

  /** What one sweep does, with a store that never fails: each FAILED record
      becomes `Next` of itself, every other record is unchanged, and no record
      is added or removed. */
  lemma SweepSpec(s: Store, env: Env, k: nat)
    requires WellFormed(s) && Healthy(env) && k in s.rows
    ensures RetryFailedEmails(s, env).store.rows.Keys == s.rows.Keys
    ensures RetryFailedEmails(s, env).store.rows[k] ==
      if s.rows[k].status == Failed then Next(s.rows[k], env) else s.rows[k]
  {
    FindByStatusSpec(s, Failed);
    AnyOrderSweep(s, FindByStatus(s, Failed), env, k);
  }

  /** SENT, CANCELLED and PENDING records are fixed points of a sweep, even
      one that a store failure cuts short. */
  lemma SweepLeavesUnfailed(s: Store, env: Env, k: nat)
    requires WellFormed(s) && k in s.rows && s.rows[k].status != Failed
    ensures k in RetryFailedEmails(s, env).store.rows
    ensures RetryFailedEmails(s, env).store.rows[k] == s.rows[k]
  {
    FindByStatusSpec(s, Failed);
    var logs := FindByStatus(s, Failed);
    forall i | 0 <= i < |logs|
      ensures logs[i].id.Some? && logs[i].id != Some(k)
    {
      assert s.rows[logs[i].id.value] == logs[i];
    }
    RetryAllLeavesOthers(s, logs, env, k);
  }

  /** The sweep reaches CANCELLED only from FAILED at the ceiling: a record
      cancelled by a sweep was FAILED with at least ten attempts before it. */
  lemma CancelOnlyAtCeiling(s: Store, env: Env, k: nat)
    requires WellFormed(s) && k in s.rows && s.rows[k].status != Cancelled
    requires k in RetryFailedEmails(s, env).store.rows
    requires RetryFailedEmails(s, env).store.rows[k].status == Cancelled
    ensures s.rows[k].status == Failed && s.rows[k].attemptCount >= MaxAttempts
  {
    FindByStatusSpec(s, Failed);
    var logs := FindByStatus(s, Failed);
    if s.rows[k].status != Failed {
      SweepLeavesUnfailed(s, env, k);
    } else if s.rows[k].attemptCount < MaxAttempts {
      CancelBelowCeilingImpossible(s, logs, env, k);
    }
  }

  /** Handling records never cancels one below the ceiling. */
  lemma {:induction false} CancelBelowCeilingImpossible(s: Store, logs: seq<EmailLog>, env: Env, k: nat)
    requires WellFormed(s) && k in s.rows && s.rows[k].status != Cancelled
    requires forall i :: 0 <= i < |logs| ==> logs[i].id.Some? && logs[i].id.value in s.rows
    requires forall i :: 0 <= i < |logs| && logs[i].id == Some(k) ==> logs[i].attemptCount < MaxAttempts
    ensures k in RetryAll(s, logs, env).store.rows
    ensures RetryAll(s, logs, env).store.rows[k].status != Cancelled
    decreases |logs|
  {
    if logs != [] {
      var a := Handle(s, logs[0], env);
      if !a.storeFailed {
        assert a.store.rows[k].status != Cancelled;
        RetryAllKeepsKeys(s, [logs[0]], env);
        CancelBelowCeilingImpossible(a.store, logs[1..], env, k);
      }
    }
  }

  // ----- runs of the whole service -----

  /** One thing that happens to the service: a queue message arrives, or the
      retry timer fires. */
  datatype Event = Arrive(msg: EmailRequest, env: Env) | Tick(env: Env)

  function Step(s: Store, e: Event): (t: Store)
    requires WellFormed(s)
    ensures WellFormed(t)
  {
    match e
    case Arrive(msg, env) => Consume(s, msg, env).store
    case Tick(env) => RetryFailedEmails(s, env).store
  }

  function Run(s: Store, events: seq<Event>): (t: Store)
    requires WellFormed(s)
    ensures WellFormed(t)
    decreases |events|
  {
    if events == [] then s else Run(Step(s, events[0]), events[1..])
  }

  /** Every state the service can reach from an empty index satisfies the
      record invariant: at most ten attempts, CANCELLED only with ten. */
  lemma {:induction false} ReachableInv(s: Store, events: seq<Event>)
    requires StoreInv(s)
    ensures StoreInv(Run(s, events))
    decreases |events|
  {
    if events != [] {
      match events[0] {
        case Arrive(msg, env) => ProcessEmailKeepsInv(s, msg.recipient, msg.subject, msg.body, env);
        case Tick(env) => SweepKeepsInv(s, env);
      }
      ReachableInv(Step(s, events[0]), events[1..]);
    }
  }

  ghost predicate EnvOfHealthy(e: Event) {
    Healthy(e.env)
  }

  /** With a store that never fails, no reachable state holds a PENDING
      record, so every record has had one to ten attempts and its error
      message is absent exactly when it was sent. */
  lemma {:induction false} ReachableSettled(s: Store, events: seq<Event>)
    requires StoreInv(s) && NoPending(s)
    requires forall i :: 0 <= i < |events| ==> EnvOfHealthy(events[i])
    ensures StoreInv(Run(s, events)) && NoPending(Run(s, events))
    decreases |events|
  {
    if events != [] {
      assert EnvOfHealthy(events[0]);
      match events[0] {
        case Arrive(msg, env) => ProcessEmailKeepsInv(s, msg.recipient, msg.subject, msg.body, env);
        case Tick(env) => SweepKeepsInv(s, env);
      }
      assert forall i :: 0 <= i < |events[1..]| ==> events[1..][i] == events[i + 1];
      ReachableSettled(Step(s, events[0]), events[1..]);
    }
  }

  /** SENT and CANCELLED are terminal: once a record reaches either, no
      later message or sweep changes any of its fields. */
  lemma {:induction false} TerminalStaysPut(s: Store, events: seq<Event>, k: nat)
    requires WellFormed(s) && k in s.rows
    requires s.rows[k].status == Sent || s.rows[k].status == Cancelled
    ensures k in Run(s, events).rows && Run(s, events).rows[k] == s.rows[k]
    decreases |events|
  {
    if events != [] {
      var t := Step(s, events[0]);
      match events[0] {
        case Arrive(msg, env) =>
          var r := ProcessEmail(s, msg.recipient, msg.subject, msg.body, env);
          assert k in t.rows && t.rows[k] == s.rows[k];
        case Tick(env) => SweepLeavesUnfailed(s, env, k);
      }
      TerminalStaysPut(t, events[1..], k);
    }
  }

  // ----- sends per record -----

  /** A run's store together with every effect of every event, in order. */
  datatype Traced = Traced(store: Store, effects: seq<Effect>)

  /** One event with its effects. */
  function StepTraced(s: Store, e: Event): (r: Traced)
    requires WellFormed(s)
    ensures r.store == Step(s, e)
  {
    match e
    case Arrive(msg, env) =>
      var a := Consume(s, msg, env);
      Traced(a.store, a.effects)
    case Tick(env) =>
      var w := RetryFailedEmails(s, env);
      Traced(w.store, w.effects)
  }

  /** A sequence of events with the effects of all of them. */
  function RunTraced(s: Store, events: seq<Event>): (r: Traced)
    requires WellFormed(s)
    ensures r.store == Run(s, events)
    decreases |events|
  {
    if events == [] then Traced(s, [])
    else
      var first := StepTraced(s, events[0]);
      var rest := RunTraced(first.store, events[1..]);
      Traced(rest.store, first.effects + rest.effects)
  }

  /** The number of messages handed to the transport for record `k`. */
  function MailsFor(effects: seq<Effect>, k: nat): nat {
    if effects == [] then 0
    else (if effects[0].Mailed? && effects[0].record == Some(k) then 1 else 0) + MailsFor(effects[1..], k)
  }

  lemma {:induction false} MailsForAppend(a: seq<Effect>, b: seq<Effect>, k: nat)
    ensures MailsFor(a + b, k) == MailsFor(a, k) + MailsFor(b, k)
  {
    if a != [] {
      var ab := a + b;
      assert ab[0] == a[0] && ab[1..] == a[1..] + b;
      MailsForAppend(a[1..], b, k);
    } else {
      assert a + b == b;
    }
  }

  /** The attempt count of record `k`, zero when there is no such record. */
  function CountOf(s: Store, k: nat): int {
    if k in s.rows then s.rows[k].attemptCount else 0
  }

  /** Handling one stored record with a store that never fails mails it
      exactly as often as its attempt count rises: once below the ceiling,
      not at all at it. */
  lemma HandleMailsFor(s: Store, log: EmailLog, env: Env, k: nat)
    requires WellFormed(s) && Healthy(env)
    requires log.id.Some? && log.id.value in s.rows && s.rows[log.id.value] == log
    ensures MailsFor(Handle(s, log, env).effects, k) == CountOf(Handle(s, log, env).store, k) - CountOf(s, k)
  {
    var a := Handle(s, log, env);
    var id := log.id.value;
    assert !a.storeFailed;
    if log.attemptCount < MaxAttempts {
      assert a.effects == [Mailed(MessageFor(log), log.id), Stored(Next(log, env))];
      assert MailsFor(a.effects, k) == (if k == id then 1 else 0) + MailsFor(a.effects[1..], k);
      assert a.effects[1..] == [Stored(Next(log, env))];
      assert Next(log, env).attemptCount == log.attemptCount + 1;
    } else {
      assert a.effects == [Stored(CancelledLog(log))];
      assert MailsFor(a.effects, k) == 0 + MailsFor(a.effects[1..], k);
    }
  }

  /** The loop of a sweep over stored records, each listed once, with a store
      that never fails: every record is mailed exactly as often as its
      attempt count rises. */
  lemma {:induction false} RetryAllMailsFor(s: Store, logs: seq<EmailLog>, env: Env, k: nat)
    requires WellFormed(s) && Healthy(env) && IdsDistinct(logs)
    requires forall i :: 0 <= i < |logs| ==> logs[i].id.value in s.rows && s.rows[logs[i].id.value] == logs[i]
    ensures MailsFor(RetryAll(s, logs, env).effects, k) == CountOf(RetryAll(s, logs, env).store, k) - CountOf(s, k)
    decreases |logs|
  {
    if logs != [] {
      var a := Handle(s, logs[0], env);
      HandleMailsFor(s, logs[0], env, k);
      assert !a.storeFailed;
      var tail := logs[1..];
      forall j | 0 <= j < |tail|
        ensures tail[j].id.value in a.store.rows && a.store.rows[tail[j].id.value] == tail[j]
      {
        assert tail[j] == logs[j + 1];
      }
      assert IdsDistinct(tail) by {
        forall j | 0 <= j < |tail| ensures tail[j] == logs[j + 1] { }
      }
      RetryAllMailsFor(a.store, tail, env, k);
      MailsForAppend(a.effects, RetryAll(a.store, tail, env).effects, k);
    }
  }

  /** One event with a store that never fails mails record `k` exactly as
      often as its attempt count rises. */
  lemma StepMailsFor(s: Store, e: Event, k: nat)
    requires WellFormed(s) && EnvOfHealthy(e)
    ensures MailsFor(StepTraced(s, e).effects, k) == CountOf(Step(s, e), k) - CountOf(s, k)
  {
    match e {
      case Arrive(msg, env) =>
        var r := ProcessEmail(s, msg.recipient, msg.subject, msg.body, env);
        assert !r.storeFailed;
        assert MailsFor(r.effects, k) == 0 + MailsFor(r.effects[1..], k);
        assert MailsFor(r.effects[1..], k) == (if Some(k) == r.log.id then 1 else 0) + MailsFor(r.effects[2..], k);
        assert MailsFor(r.effects[2..], k) == 0 + MailsFor(r.effects[3..], k);
      case Tick(env) =>
        FindByStatusSpec(s, Failed);
        RetryAllMailsFor(s, FindByStatus(s, Failed), env, k);
    }
  }

  /** Sends match attempts: over any run with a store that never fails,
      the messages handed to the transport for record `k` are exactly the
      rise in its attempt count. A record therefore gets at most ten sends,
      counted from its creation. */
  lemma {:induction false} MailsMatchAttempts(s: Store, events: seq<Event>, k: nat)
    requires WellFormed(s)
    requires forall i :: 0 <= i < |events| ==> EnvOfHealthy(events[i])
    ensures MailsFor(RunTraced(s, events).effects, k) == CountOf(Run(s, events), k) - CountOf(s, k)
    decreases |events|
  {
    if events != [] {
      var first := StepTraced(s, events[0]);
      StepMailsFor(s, events[0], k);
      assert forall i :: 0 <= i < |events[1..]| ==> events[1..][i] == events[i + 1];
      MailsMatchAttempts(first.store, events[1..], k);
      MailsForAppend(first.effects, RunTraced(first.store, events[1..]).effects, k);
    }
  }

  /** The bound the ceiling is for: from any state within the invariant, a
      run with a store that never fails hands the transport at most ten
      messages for a record, less the attempts it had already had. */
  lemma AtMostTenSends(s: Store, events: seq<Event>, k: nat)
    requires StoreInv(s)
    requires forall i :: 0 <= i < |events| ==> EnvOfHealthy(events[i])
    ensures MailsFor(RunTraced(s, events).effects, k) <= MaxAttempts - CountOf(s, k)
    ensures k !in s.rows ==> MailsFor(RunTraced(s, events).effects, k) <= MaxAttempts
  {
    MailsMatchAttempts(s, events, k);
    ReachableInv(s, events);
  }

  /** With a store whose saves all fail, a FAILED record is mailed again by
      every sweep while its stored attempt count never moves: `trySend`
      hands the message over before the save that would record the attempt.
      Sends are then unbounded. */
  lemma FailingStoreResends(s: Store, env: Env, k: nat, n: nat)
    requires WellFormed(s) && s.rows.Keys == {k}
    requires s.rows[k].status == Failed && s.rows[k].attemptCount < MaxAttempts
    requires forall log :: !env.saves(log)
    ensures Run(s, seq(n, _ => Tick(env))) == s
    ensures MailsFor(RunTraced(s, seq(n, _ => Tick(env))).effects, k) == n
  {
    RefusedSaveSweeps(s, env, k, n);
  }

  /** In a store holding one record, the status query for its status lists
      just that record. */
  lemma OnlyRecordListed(s: Store, st: Status, k: nat)
    requires WellFormed(s) && s.rows.Keys == {k} && s.rows[k].status == st
    ensures FindByStatus(s, st) == [s.rows[k]]
  {
    var logs := FindByStatus(s, st);
    FindByStatusSpec(s, st);
    var ks := seq(|logs|, i requires 0 <= i < |logs| => logs[i].id.value);
    DistinctCount(ks);
    var ids := set i | 0 <= i < |ks| :: ks[i];
    assert s.rows[k] in logs;
    assert ids == {k};
    assert logs[0] == s.rows[k];
  }

  lemma {:induction false} RefusedSaveSweeps(s: Store, env: Env, k: nat, n: nat)
    requires WellFormed(s) && s.rows.Keys == {k}
    requires s.rows[k].status == Failed && s.rows[k].attemptCount < MaxAttempts
    requires forall log :: !env.saves(log)
    ensures RunTraced(s, seq(n, _ => Tick(env))).store == s
    ensures MailsFor(RunTraced(s, seq(n, _ => Tick(env))).effects, k) == n
    decreases n
  {
    var events := seq(n, _ => Tick(env));
    if n > 0 {
      var log := s.rows[k];
      OnlyRecordListed(s, Failed, k);
      var w := RetryFailedEmails(s, env);
      assert w.store == s && w.effects == [Mailed(MessageFor(log), log.id)];
      assert MailsFor(w.effects, k) == 1 + MailsFor(w.effects[1..], k);
      assert events[1..] == seq(n - 1, _ => Tick(env));
      RefusedSaveSweeps(s, env, k, n - 1);
      MailsForAppend(w.effects, RunTraced(s, events[1..]).effects, k);
    }
  }

  // ----- scenarios -----

  /** `n` sweeps in a row, all in the same environment. */
  function Sweeps(s: Store, env: Env, n: nat): (t: Store)
    requires WellFormed(s)
    ensures WellFormed(t)
    decreases n
  {
    if n == 0 then s else RetryFailedEmails(Sweeps(s, env, n - 1), env).store
  }

  ghost predicate AlwaysRefuses(env: Env) {
    forall log :: env.transport(log).Refused?
  }

  lemma RefusedSweep(s: Store, env: Env, k: nat)
    requires WellFormed(s) && Healthy(env) && AlwaysRefuses(env)
    requires k in s.rows && s.rows[k].status == Failed
    requires 0 <= s.rows[k].attemptCount < MaxAttempts
    ensures k in RetryFailedEmails(s, env).store.rows
    ensures RetryFailedEmails(s, env).store.rows[k].status == Failed
    ensures RetryFailedEmails(s, env).store.rows[k].attemptCount == s.rows[k].attemptCount + 1
  {
    var log := s.rows[k];
    SweepSpec(s, env, k);
    var outcome := env.transport(Counted(log, env.now));
    assert outcome.Refused?;
  }

  /** Record `k` is FAILED with `c` attempts. */
  predicate FailedAt(t: Store, k: nat, c: int) {
    k in t.rows && t.rows[k].status == Failed && t.rows[k].attemptCount == c
  }

  /** With a transport that always refuses, each sweep adds one attempt to a
      FAILED record below the ceiling. */
  lemma {:induction false} RefusedSweepsCount(s: Store, env: Env, k: nat, c: int, n: nat)
    requires WellFormed(s) && Healthy(env) && AlwaysRefuses(env)
    requires FailedAt(s, k, c) && 0 <= c && c + n <= MaxAttempts
    ensures FailedAt(Sweeps(s, env, n), k, c + n)
    decreases n
  {
    if n > 0 {
      RefusedSweepsCount(s, env, k, c, n - 1);
      RefusedSweep(Sweeps(s, env, n - 1), env, k);
    }
  }

  /** A SENT or CANCELLED record survives any number of sweeps unchanged. */
  lemma {:induction false} SweepsLeaveTerminal(s: Store, env: Env, k: nat, n: nat)
    requires WellFormed(s) && k in s.rows
    requires s.rows[k].status == Sent || s.rows[k].status == Cancelled
    ensures k in Sweeps(s, env, n).rows && Sweeps(s, env, n).rows[k] == s.rows[k]
    decreases n
  {
    if n > 0 {
      var before := Sweeps(s, env, n - 1);
      assert Sweeps(s, env, n) == RetryFailedEmails(before, env).store;
      SweepsLeaveTerminal(s, env, k, n - 1);
      SweepLeavesUnfailed(before, env, k);
    }
  }

  /** A transport that always delivers and a store that never fails: the
      request yields one SENT record with one attempt. */
  lemma DeliveredAtOnce(to: string, subject: string, content: string, env: Env)
    requires Healthy(env) && forall log :: env.transport(log) == Delivered
    ensures var r := ProcessEmail(Empty(1), to, subject, content, env);
      && !r.storeFailed && |r.store.rows| == 1
      && r.log.status == Sent && r.log.attemptCount == 1 && r.log.errorMessage.None?
  {
  }

  /** A request whose first attempt is refused, with a store that never
      fails, leaves one FAILED record with one attempt. */
  lemma FirstAttemptRefused(s: Store, to: string, subject: string, content: string, env: Env)
    requires WellFormed(s) && Healthy(env)
    requires forall log: EmailLog :: log.attemptCount == 1 ==> env.transport(log).Refused?
    ensures var r := ProcessEmail(s, to, subject, content, env);
      && !r.storeFailed && r.log.status == Failed && r.log.attemptCount == 1 && r.log.errorMessage.Some?
      && FailedAt(r.store, r.log.id.value, 1)
  {
    var r := ProcessEmail(s, to, subject, content, env);
    assert env.transport(Counted(r.effects[0].log, env.now)).Refused?;
  }

  /** Sweeps with a transport that always refuses, from a FAILED record with
      one attempt: one more attempt per sweep up to ten after nine sweeps; the
      tenth sweep cancels with ten attempts; later sweeps change nothing. */
  lemma RefusedUntilCancelled(t: Store, env: Env, k: nat, n: nat, later: nat)
    requires WellFormed(t) && Healthy(env) && AlwaysRefuses(env) && FailedAt(t, k, 1)
    ensures n < MaxAttempts ==> FailedAt(Sweeps(t, env, n), k, 1 + n)
    ensures var c := Sweeps(t, env, MaxAttempts);
      && k in c.rows && c.rows[k].status == Cancelled && c.rows[k].attemptCount == MaxAttempts
      && k in Sweeps(c, env, later).rows && Sweeps(c, env, later).rows[k] == c.rows[k]
  {
    if n < MaxAttempts {
      RefusedSweepsCount(t, env, k, 1, n);
    }
    RefusedSweepsCount(t, env, k, 1, MaxAttempts - 1);
    CancelledAtTenth(t, env, k);
    SweepsLeaveTerminal(Sweeps(t, env, MaxAttempts), env, k, later);
  }


  /** The tenth sweep cancels a record refused nine times by sweeps. */
  lemma CancelledAtTenth(t: Store, env: Env, k: nat)
    requires WellFormed(t) && Healthy(env) && FailedAt(Sweeps(t, env, MaxAttempts - 1), k, MaxAttempts)
    ensures k in Sweeps(t, env, MaxAttempts).rows
    ensures Sweeps(t, env, MaxAttempts).rows[k] == CancelledLog(Sweeps(t, env, MaxAttempts - 1).rows[k])
  {
    SweepSpec(Sweeps(t, env, MaxAttempts - 1), env, k);
  }

  /** A transport that always refuses: FAILED with one attempt after the
      request, then as `RefusedUntilCancelled` describes. */
  lemma AlwaysRefusedIsCancelled(s: Store, to: string, subject: string, content: string, env: Env, n: nat, later: nat)
    requires WellFormed(s) && Healthy(env) && AlwaysRefuses(env)
    ensures var r := ProcessEmail(s, to, subject, content, env);
      && !r.storeFailed && r.log.status == Failed && r.log.attemptCount == 1 && r.log.errorMessage.Some?
      && var k := r.log.id.value;
      && (n < MaxAttempts ==> FailedAt(Sweeps(r.store, env, n), k, 1 + n))
      && var c := Sweeps(r.store, env, MaxAttempts);
      && k in c.rows && c.rows[k].status == Cancelled && c.rows[k].attemptCount == MaxAttempts
      && k in Sweeps(c, env, later).rows && Sweeps(c, env, later).rows[k] == c.rows[k]
  {
    FirstAttemptRefused(s, to, subject, content, env);
    var r := ProcessEmail(s, to, subject, content, env);
    RefusedUntilCancelled(r.store, env, r.log.id.value, n, later);
  }


  /** The transport of the recovery scenario: it refuses the first three
      attempts of every record and delivers the fourth. */
  function RecoversOnFourth(log: EmailLog): SendOutcome {
    if log.attemptCount <= 3 then Refused("MailSendException", Some("Server is down")) else Delivered
  }

  /** One sweep of the recovery scenario. */
  lemma RecoverySweep(t: Store, env: Env, k: nat, c: int)
    requires WellFormed(t) && Healthy(env) && env.transport == RecoversOnFourth
    requires FailedAt(t, k, c) && 1 <= c <= 3
    ensures c < 3 ==> FailedAt(RetryFailedEmails(t, env).store, k, c + 1)
    ensures c == 3 ==> k in RetryFailedEmails(t, env).store.rows
    ensures c == 3 ==> var log := RetryFailedEmails(t, env).store.rows[k];
      log.status == Sent && log.attemptCount == 4 && log.errorMessage.None?
  {
    SweepSpec(t, env, k);
  }

  /** Sweeps of the recovery scenario from a FAILED record with one attempt:
      SENT with four attempts and no error after the third sweep, and left
      alone by every later one. */
  lemma RecoveredAfterThreeSweeps(t: Store, env: Env, k: nat, later: nat)
    requires WellFormed(t) && Healthy(env) && env.transport == RecoversOnFourth
    requires FailedAt(t, k, 1)
    ensures FailedAt(Sweeps(t, env, 1), k, 2) && FailedAt(Sweeps(t, env, 2), k, 3)
    ensures var c := Sweeps(t, env, 3);
      && k in c.rows && c.rows[k].status == Sent && c.rows[k].attemptCount == 4 && c.rows[k].errorMessage.None?
      && k in Sweeps(c, env, later).rows && Sweeps(c, env, later).rows[k] == c.rows[k]
  {
    ThreeRecoverySweeps(t, env, k);
    SweepsLeaveTerminal(Sweeps(t, env, 3), env, k, later);
  }


  lemma ThreeRecoverySweeps(t: Store, env: Env, k: nat)
    requires WellFormed(t) && Healthy(env) && env.transport == RecoversOnFourth
    requires FailedAt(t, k, 1)
    ensures FailedAt(Sweeps(t, env, 1), k, 2) && FailedAt(Sweeps(t, env, 2), k, 3)
    ensures k in Sweeps(t, env, 3).rows
    ensures var log := Sweeps(t, env, 3).rows[k];
      log.status == Sent && log.attemptCount == 4 && log.errorMessage.None?
  {
    RecoverySweep(Sweeps(t, env, 0), env, k, 1);
    RecoverySweep(Sweeps(t, env, 1), env, k, 2);
    RecoverySweep(Sweeps(t, env, 2), env, k, 3);
  }


  /** Recovery: FAILED after the request, then as `RecoveredAfterThreeSweeps`
      describes. */
  lemma RecoveryOnFourthAttempt(s: Store, to: string, subject: string, content: string, env: Env, later: nat)
    requires WellFormed(s) && Healthy(env) && env.transport == RecoversOnFourth
    ensures var r := ProcessEmail(s, to, subject, content, env);
      && !r.storeFailed && r.log.status == Failed && r.log.attemptCount == 1
      && var k := r.log.id.value;
      && FailedAt(Sweeps(r.store, env, 1), k, 2) && FailedAt(Sweeps(r.store, env, 2), k, 3)
      && var c := Sweeps(r.store, env, 3);
      && k in c.rows && c.rows[k].status == Sent && c.rows[k].attemptCount == 4 && c.rows[k].errorMessage.None?
      && k in Sweeps(c, env, later).rows && Sweeps(c, env, later).rows[k] == c.rows[k]
  {
    FirstAttemptRefused(s, to, subject, content, env);
    var r := ProcessEmail(s, to, subject, content, env);
    RecoveredAfterThreeSweeps(r.store, env, r.log.id.value, later);
  }


  /** The failure path keeps the transport's words: a refusal with message
      "Server is down" is recorded as FAILED with that message after the
      exception's class name. */
  lemma RefusalRecordsCause(log: EmailLog, now: nat)
    ensures var r := Attempted(log, Refused("MailSendException", Some("Server is down")), now);
      r.status == Failed && r.errorMessage == Some("MailSendException: Server is down")
  {
    assert "MailSendException" + ": " + "Server is down" == "MailSendException: Server is down";
  }
}

=== FILE: email_sender.dfy ===
/** `EmailSenderService`: creating a delivery record for a send request and
    making one delivery attempt through the mail transport, plus the queue
    consumer that hands each inbound request to it.

    The mail transport, the clock and the store's ability to save are not
    code of this service: they are given as an environment `Env`. An
    operation's visible effects (records persisted, messages handed to the
    transport) are returned as a trace, in the order they happen. */
module EmailSender {
  import opened Wrappers
  import opened Table
  import opened EmailLogModel
  import opened EmailStore

  /** The fixed sender address of every outgoing message. */
  const FromAddress: string := "noreply@moviereviews.com"

  /** A plain-text mail message. */
  datatype MailMessage = MailMessage(from: string, to: string, subject: string, text: string)

  /** What the transport does with one message: delivers it, or throws an
      exception of the named class carrying a (nullable) message. */
  datatype SendOutcome = Delivered | Refused(exceptionName: string, detail: Option<string>)

  /** One visible effect: a record persisted, or a message handed to the
      transport for the record with id `record`. */
  datatype Effect = Stored(log: EmailLog) | Mailed(message: MailMessage, record: Option<nat>)

  /** The world outside the service. `transport` decides the outcome of the
      send made for a record (seen with its attempt already counted, so the
      outcome may depend on the attempt number); `saves` says whether saving a
      record succeeds; `now` is the clock reading. */
  datatype Env = Env(transport: EmailLog -> SendOutcome, saves: EmailLog -> bool, now: nat)

  /** A store that never fails. */
  ghost predicate Healthy(env: Env) {
    forall log :: env.saves(log)
  }

  /** The result of an operation on one record: the store afterwards, the
      record as the caller's variable holds it, the effects, and whether a
      store failure was thrown out of the operation. */
  datatype AttemptRun = AttemptRun(store: Store, log: EmailLog, effects: seq<Effect>, storeFailed: bool)

  /** The message sent for a record. */
  function MessageFor(log: EmailLog): MailMessage {
    MailMessage(FromAddress, log.recipient, log.subject, log.content)
  }

  /** The text recorded for a refused send: the exception's simple class
      name, ": ", and its message, which Java string concatenation renders
      as "null" when absent. */
  function ErrorText(exceptionName: string, detail: Option<string>): string {
    exceptionName + ": " + detail.GetOr("null")
  }

  /** The first half of `trySend`: the attempt is counted and time-stamped
      before the transport is called. */
  function Counted(log: EmailLog, now: nat): EmailLog {
    log.(attemptCount := Increment(log.attemptCount), lastAttemptTime := now)
  }

  /** The record as `trySend` leaves it, before saving, given the transport's
      outcome. */
  function Attempted(log: EmailLog, outcome: SendOutcome, now: nat): (r: EmailLog)
    ensures r.attemptCount == Increment(log.attemptCount) && r.lastAttemptTime == now
    ensures r.id == log.id && r.recipient == log.recipient
    ensures r.subject == log.subject && r.content == log.content
    ensures r.status == Sent <==> outcome.Delivered?
    ensures r.status == Failed <==> outcome.Refused?
    ensures r.errorMessage.None? <==> r.status == Sent
    ensures outcome.Refused? ==>
      r.errorMessage == Some(ErrorText(outcome.exceptionName, outcome.detail))
  {
    var counted := Counted(log, now);
    match outcome
    case Delivered => counted.(status := Sent, errorMessage := None)
    case Refused(name, detail) => counted.(status := Failed, errorMessage := Some(ErrorText(name, detail)))
  }

  /** `trySend(log)`: count the attempt, hand the message to the transport,
      record SENT or FAILED, then save. Whatever the transport does is caught
      and turned into the record's state; only a failing save is thrown to
      the caller. */
  function TrySend(s: Store, log: EmailLog, env: Env): (r: AttemptRun)
    requires WellFormed(s)
    ensures r.log == Attempted(log, env.transport(Counted(log, env.now)), env.now).(id := r.log.id)
    ensures log.id.Some? ==> r.log.id == log.id
    ensures 1 <= |r.effects| && r.effects[0] == Mailed(MessageFor(log), log.id)
    ensures r.storeFailed <==> !env.saves(Attempted(log, env.transport(Counted(log, env.now)), env.now))
    ensures r.storeFailed ==> r.store == s && r.effects == [Mailed(MessageFor(log), log.id)]
    ensures !r.storeFailed ==>
      && r.effects == [Mailed(MessageFor(log), log.id), Stored(r.log)]
      && r.log.id.Some? && r.log.id.value in r.store.rows && r.store.rows[r.log.id.value] == r.log
      && (forall k :: k in s.rows && Some(k) != r.log.id ==> k in r.store.rows && r.store.rows[k] == s.rows[k])
      && (forall k :: k in r.store.rows ==> k in s.rows || Some(k) == r.log.id)
    ensures WellFormed(r.store)
  {
    var counted := Counted(log, env.now);
    var done := Attempted(log, env.transport(counted), env.now);
    var mailed := [Mailed(MessageFor(counted), counted.id)];
    if env.saves(done) then
      var (s', saved) := Save(s, done);
      AttemptRun(s', saved, mailed + [Stored(saved)], false)
    else
      AttemptRun(s, done, mailed, true)
  }

  /** The record `processEmail` creates: PENDING, no attempts yet, stamped. */
  function NewLog(to: string, subject: string, content: string, now: nat): EmailLog {
    EmailLog(None, to, subject, content, Pending, None, 0, now)
  }

  /** `processEmail(to, subject, content)`: create the record, save it, then
      make the first attempt on the saved record. */
  function ProcessEmail(s: Store, to: string, subject: string, content: string, env: Env): (r: AttemptRun)
    requires WellFormed(s)
    ensures WellFormed(r.store)
    ensures r.log.recipient == to && r.log.subject == subject && r.log.content == content
    // nothing is sent before the PENDING record has been saved
    ensures |r.effects| > 0 ==>
      && r.effects[0].Stored?
      && r.effects[0].log == NewLog(to, subject, content, env.now).(id := r.effects[0].log.id)
      && r.effects[0].log.id.Some? && r.effects[0].log.id.value !in s.rows
    ensures !env.saves(NewLog(to, subject, content, env.now)) ==> r.store == s && r.effects == [] && r.storeFailed
    // a failing second save leaves the PENDING record in the store
    ensures r.storeFailed && |r.effects| > 0 ==>
      r.store.rows == s.rows[r.effects[0].log.id.value := r.effects[0].log]
    ensures r.log.errorMessage.Some? <==> r.log.status == Failed
    ensures !r.storeFailed ==>
      && r.log.attemptCount == 1 && r.log.lastAttemptTime == env.now
      && (r.log.status == Sent || r.log.status == Failed)
      && r.log.id.Some? && r.log.id.value !in s.rows
      && r.store.rows == s.rows[r.log.id.value := r.log]
      && |r.effects| == 3 && r.effects[1] == Mailed(MessageFor(r.log), r.log.id) && r.effects[2] == Stored(r.log)
      && r.effects[0].log.id == r.log.id
  {
    var created := NewLog(to, subject, content, env.now);
    if !env.saves(created) then
      AttemptRun(s, created, [], true)
    else
      var (s1, pending) := Save(s, created);
      var a := TrySend(s1, pending, env);
      assert !a.storeFailed ==> a.store.rows == s1.rows[pending.id.value := a.log] by {
        if !a.storeFailed {
          assert a.store.rows.Keys == s1.rows.Keys;
        }
      }
      AttemptRun(a.store, a.log, [Stored(pending)] + a.effects, a.storeFailed)
  }

  /** A send request as it arrives on the queue. */
  datatype EmailRequest = EmailRequest(recipient: string, subject: string, body: string)

  /** `EmailConsumer.consumeMessage`: one request per message, its `body`
      becoming the record's `content`. */
  function Consume(s: Store, msg: EmailRequest, env: Env): (r: AttemptRun)
    requires WellFormed(s)
    ensures WellFormed(r.store)
    ensures r.log.recipient == msg.recipient && r.log.subject == msg.subject && r.log.content == msg.body
    ensures !r.storeFailed ==> r.log.attemptCount == 1 && r.log.status != Pending
  {
    ProcessEmail(s, msg.recipient, msg.subject, msg.body, env)
  }
}

=== FILE: email_store.dfy ===
/** The index of delivery records (`EmailLogRepository`): `save` with
    store-assigned ids and overwrite semantics, and `findByStatus`. */
module EmailStore {
  import opened Wrappers
  import opened Table
  import opened EmailLogModel

  type Store = Table<EmailLog>

  /** The record stored under `k` carries `k` as its id. */
  predicate IdsAgree(s: Store) {
    forall k :: k in s.rows ==> s.rows[k].id == Some(k)
  }

  predicate WellFormed(s: Store) {
    Valid(s) && IdsAgree(s)
  }

  /** `repository.save(log)`: a record without id gets a fresh one; a record
      with an id overwrites the stored one. Returns the new store and the
      persisted form of the record. */
  function Save(s: Store, log: EmailLog): (r: (Store, EmailLog))
    requires WellFormed(s)
    ensures r.1 == log.(id := r.1.id) && r.1.id.Some?
    ensures log.id.Some? ==> r.1 == log
    ensures log.id.None? ==> r.1.id.value !in s.rows
    ensures r.1.id.value in r.0.rows && r.0.rows[r.1.id.value] == r.1
    ensures forall k :: k in s.rows && Some(k) != r.1.id ==> k in r.0.rows && r.0.rows[k] == s.rows[k]
    ensures forall k :: k in r.0.rows ==> k in s.rows || Some(k) == r.1.id
    ensures WellFormed(r.0)
  {
    match log.id
    case Some(k) => (Put(s, k, log), log)
    case None =>
      var saved := log.(id := Some(s.next));
      (Put(s, s.next, saved), saved)
  }

  /** The records with status `st` among the given ids, in that order. */
  function Select(s: Store, ks: seq<nat>, st: Status): (r: seq<EmailLog>)
    requires IdsAgree(s)
    requires forall i :: 0 <= i < |ks| ==> ks[i] in s.rows
    ensures forall i :: 0 <= i < |r| ==>
      && r[i].status == st && r[i].id.Some? && r[i].id.value in s.rows
      && s.rows[r[i].id.value] == r[i]
  {
    if ks == [] then []
    else
      var rest := Select(s, ks[1..], st);
      var log := s.rows[ks[0]];
      if log.status == st then [log] + rest else rest
  }

  /** `findByStatus(StatusName(st))`: every stored record with status `st`,
      each exactly once, in ascending id order. */
  function FindByStatus(s: Store, st: Status): (r: seq<EmailLog>)
    requires WellFormed(s)
    ensures forall i :: 0 <= i < |r| ==> r[i].id.Some? && r[i].status == st
  {
    Select(s, Keys(s), st)
  }

  /** The ids of a record sequence are strictly increasing (so no record is
      listed twice). */
  predicate IdsAscending(logs: seq<EmailLog>) {
    && (forall i :: 0 <= i < |logs| ==> logs[i].id.Some?)
    && (forall i, j :: 0 <= i < j < |logs| ==> logs[i].id.value < logs[j].id.value)
  }

  /** No two records of a sequence share an id. */
  predicate IdsDistinct(logs: seq<EmailLog>) {
    && (forall i :: 0 <= i < |logs| ==> logs[i].id.Some?)
    && (forall i, j :: 0 <= i < j < |logs| ==> logs[i].id != logs[j].id)
  }

  /** Selecting among ids above `b` yields only records above `b`. */
  lemma {:induction false} SelectAbove(s: Store, ks: seq<nat>, st: Status, b: int)
    requires IdsAgree(s)
    requires forall i :: 0 <= i < |ks| ==> ks[i] in s.rows && b < ks[i]
    ensures forall i :: 0 <= i < |Select(s, ks, st)| ==> b < Select(s, ks, st)[i].id.value
  {
    if ks != [] {
      SelectAbove(s, ks[1..], st, b);
    }
  }

  lemma {:induction false} SelectAscending(s: Store, ks: seq<nat>, st: Status)
    requires IdsAgree(s)
    requires forall i :: 0 <= i < |ks| ==> ks[i] in s.rows
    requires forall i, j :: 0 <= i < j < |ks| ==> ks[i] < ks[j]
    ensures IdsAscending(Select(s, ks, st))
  {
    if ks != [] {
      var tail := ks[1..];
      SelectAscending(s, tail, st);
      SelectAbove(s, tail, st, ks[0]);
    }
  }

  lemma {:induction false} SelectComplete(s: Store, ks: seq<nat>, st: Status, k: nat)
    requires IdsAgree(s)
    requires forall i :: 0 <= i < |ks| ==> ks[i] in s.rows
    requires k in ks && s.rows[k].status == st
    ensures s.rows[k] in Select(s, ks, st)
  {
    var r := Select(s, ks, st);
    var rest := Select(s, ks[1..], st);
    if ks[0] == k {
      assert r[0] == s.rows[k];
    } else {
      assert k in ks[1..];
      SelectComplete(s, ks[1..], st, k);
      var m :| 0 <= m < |rest| && rest[m] == s.rows[k];
      if s.rows[ks[0]].status == st {
        assert r[m + 1] == rest[m];
      } else {
        assert r[m] == rest[m];
      }
    }
  }

  /** What `findByStatus` promises its caller: only records at that status,
      each equal to the stored record under its own id, each stored record at
      that status present, and none listed twice. */
  lemma FindByStatusSpec(s: Store, st: Status)
    requires WellFormed(s)
    ensures var r := FindByStatus(s, st);
      && IdsAscending(r)
      && (forall i :: 0 <= i < |r| ==>
            r[i].status == st && r[i].id.value in s.rows && s.rows[r[i].id.value] == r[i])
      && (forall k :: k in s.rows && s.rows[k].status == st ==> s.rows[k] in r)
  {
    SelectAscending(s, Keys(s), st);
    forall k | k in s.rows && s.rows[k].status == st
      ensures s.rows[k] in FindByStatus(s, st)
    {
      SelectComplete(s, Keys(s), st, k);
    }
  }
}

=== FILE: movie_report.dfy ===
/** `MovieService.generateReport`: a CSV text of the filtered movies, one
    header line and then one line per movie, in query order. Fields are
    written as they are, without quoting. */
module MovieReport {
  import opened Table
  import opened CatalogModel
  import opened MovieRepository
  import opened Text

  const Header: string := "Id,Title,Year,Genre,Director"

  /** `"%d,%s,%d,%s,%s"` of the id, title, year, genre and director name. */
  function Row(id: nat, m: Movie, directorName: string): (line: string)
    ensures NatToDecimal(id) + "," <= line
  {
    NatToDecimal(id) + "," + m.title + "," + IntToDecimal(m.year) + "," + m.genre + "," + directorName
  }

  /** The report line of each listed movie. */
  function Rows(c: Catalog, ids: seq<nat>): (lines: seq<string>)
    requires Referential(c)
    requires forall i :: 0 <= i < |ids| ==> ids[i] in c.movies.rows
    ensures |lines| == |ids|
    ensures forall i :: 0 <= i < |ids| ==>
      var m := c.movies.rows[ids[i]];
      lines[i] == Row(ids[i], m, c.directors.rows[m.directorId].name)
  {
    seq(|ids|, i requires 0 <= i < |ids| =>
      var m := c.movies.rows[ids[i]];
      Row(ids[i], m, c.directors.rows[m.directorId].name))
  }

  /** The report text; its encoding as UTF-8 bytes is not modelled. */
  function GenerateReport(c: Catalog, f: MovieFilter): (text: string)
    requires Valid(c.movies) && Referential(c)
    ensures Header + "\n" <= text
  {
    var lines := [Header] + Rows(c, FindAllWithFilters(c.movies, f));
    assert JoinLines(lines) == Header + "\n" + JoinLines(lines[1..]);
    JoinLines(lines)
  }

  /** No stored text that ends up in a report line holds a line separator. */
  predicate SingleLineText(c: Catalog) {
    && (forall k :: k in c.movies.rows ==> NoNewline(c.movies.rows[k].title) && NoNewline(c.movies.rows[k].genre))
    && (forall k :: k in c.directors.rows ==> NoNewline(c.directors.rows[k].name))
  }

  lemma RowSingleLine(id: nat, m: Movie, directorName: string)
    requires NoNewline(m.title) && NoNewline(m.genre) && NoNewline(directorName)
    ensures NoNewline(Row(id, m, directorName))
  {
    var line := Row(id, m, directorName);
    forall i | 0 <= i < |line|
      ensures line[i] != '\n'
    {
    }
  }

  lemma HeaderSingleLine()
    ensures NoNewline(Header)
  {
  }

  lemma {:induction false} RowsSingleLine(c: Catalog, ids: seq<nat>)
    requires Referential(c) && SingleLineText(c)
    requires forall i :: 0 <= i < |ids| ==> ids[i] in c.movies.rows
    ensures forall i :: 0 <= i < |ids| ==> NoNewline(Rows(c, ids)[i])
  {
    forall i | 0 <= i < |ids|
      ensures NoNewline(Rows(c, ids)[i])
    {
      var m := c.movies.rows[ids[i]];
      RowSingleLine(ids[i], m, c.directors.rows[m.directorId].name);
    }
  }

  /** Read back line by line, the report is the header followed by exactly
      one line per matching movie, in the query's order, as long as no title,
      genre or director name holds a line separator. */
  lemma {:induction false} ReportLines(c: Catalog, f: MovieFilter)
    requires Valid(c.movies) && Referential(c)
    requires SingleLineText(c)
    ensures var ids := FindAllWithFilters(c.movies, f);
      SplitLines(GenerateReport(c, f)) == [Header] + Rows(c, ids)
    ensures |SplitLines(GenerateReport(c, f))| == 1 + |FindAllWithFilters(c.movies, f)|
  {
    var ids := FindAllWithFilters(c.movies, f);
    var rows := Rows(c, ids);
    RowsSingleLine(c, ids);
    HeaderSingleLine();
    SplitJoinCons(Header, rows);
  }
}

=== FILE: movie_repository.dfy ===
/** `MovieRepository.findAllWithFilters`: the movies matching three optional
    filters, each an equality on one field that an absent value switches
    off. Results come in ascending id order. */
module MovieRepository {
  import opened Wrappers
  import opened Table
  import opened CatalogModel

  datatype MovieFilter = MovieFilter(directorId: Option<int>, genre: Option<string>, year: Option<int>)

  /** The filter with every field absent. */
  const NoFilter: MovieFilter := MovieFilter(None, None, None)

  /** The query's `WHERE` clause: `(:x IS NULL OR m.x = :x)` for each field,
      joined by `AND`. */
  predicate Matches(f: MovieFilter, m: Movie) {
    && (f.directorId.None? || f.directorId.value == m.directorId)
    && (f.genre.None? || f.genre.value == m.genre)
    && (f.year.None? || f.year.value == m.year)
  }

  /** The ids among `ks` whose movie matches, in the order of `ks`. */
  function FilterIds(rows: map<nat, Movie>, ks: seq<nat>, f: MovieFilter): (r: seq<nat>)
    requires forall i :: 0 <= i < |ks| ==> ks[i] in rows
    ensures forall i :: 0 <= i < |r| ==> r[i] in rows && Matches(f, rows[r[i]])
    ensures |r| <= |ks|
  {
    if ks == [] then []
    else
      var rest := FilterIds(rows, ks[1..], f);
      if Matches(f, rows[ks[0]]) then [ks[0]] + rest else rest
  }

  /** `findAllWithFilters(directorId, genre, year, unpaged)`: the ids of the
      matching movies. */
  function FindAllWithFilters(t: Table<Movie>, f: MovieFilter): (r: seq<nat>)
    requires Valid(t)
    ensures forall i :: 0 <= i < |r| ==> r[i] in t.rows && Matches(f, t.rows[r[i]])
  {
    FilterIds(t.rows, Keys(t), f)
  }

  /** Filtering keeps ids above a bound above it. */
  lemma {:induction false} FilterAbove(rows: map<nat, Movie>, ks: seq<nat>, f: MovieFilter, b: int)
    requires forall i :: 0 <= i < |ks| ==> ks[i] in rows && b < ks[i]
    ensures forall i :: 0 <= i < |FilterIds(rows, ks, f)| ==> b < FilterIds(rows, ks, f)[i]
  {
    if ks != [] {
      FilterAbove(rows, ks[1..], f, b);
    }
  }

  lemma {:induction false} FilterAscending(rows: map<nat, Movie>, ks: seq<nat>, f: MovieFilter)
    requires forall i :: 0 <= i < |ks| ==> ks[i] in rows
    requires forall i, j :: 0 <= i < j < |ks| ==> ks[i] < ks[j]
    ensures forall i, j :: 0 <= i < j < |FilterIds(rows, ks, f)| ==> FilterIds(rows, ks, f)[i] < FilterIds(rows, ks, f)[j]
  {
    if ks != [] {
      FilterAscending(rows, ks[1..], f);
      FilterAbove(rows, ks[1..], f, ks[0]);
    }
  }

  lemma {:induction false} FilterComplete(rows: map<nat, Movie>, ks: seq<nat>, f: MovieFilter, k: nat)
    requires forall i :: 0 <= i < |ks| ==> ks[i] in rows
    requires k in ks && Matches(f, rows[k])
    ensures k in FilterIds(rows, ks, f)
  {
    if ks[0] != k {
      assert k in ks[1..];
      FilterComplete(rows, ks[1..], f, k);
    }
  }

  /** What the query returns: exactly the ids of the matching movies, each
      once, in ascending order. */
  lemma FindAllWithFiltersSpec(t: Table<Movie>, f: MovieFilter)
    requires Valid(t)
    ensures var r := FindAllWithFilters(t, f);
      && (forall k :: k in r <==> k in t.rows && Matches(f, t.rows[k]))
      && (forall i, j :: 0 <= i < j < |r| ==> r[i] < r[j])
  {
    FilterAscending(t.rows, Keys(t), f);
    forall k | k in t.rows && Matches(f, t.rows[k])
      ensures k in FindAllWithFilters(t, f)
    {
      FilterComplete(t.rows, Keys(t), f, k);
    }
  }

  lemma {:induction false} FilterNone(rows: map<nat, Movie>, ks: seq<nat>, f: MovieFilter)
    requires forall i :: 0 <= i < |ks| ==> ks[i] in rows && !Matches(f, rows[ks[i]])
    ensures FilterIds(rows, ks, f) == []
  {
    if ks != [] {
      FilterNone(rows, ks[1..], f);
    }
  }

  /** When no stored movie matches, the query lists nothing. */
  lemma NothingMatchesNothingListed(t: Table<Movie>, f: MovieFilter)
    requires Valid(t)
    requires forall k :: k in t.rows ==> !Matches(f, t.rows[k])
    ensures FindAllWithFilters(t, f) == []
  {
    FilterNone(t.rows, Keys(t), f);
  }

  /** With every filter absent, every movie matches, so the query lists every
      stored movie. */
  lemma {:induction false} NoFilterMatchesAll(t: Table<Movie>)
    requires Valid(t)
    ensures FindAllWithFilters(t, NoFilter) == Keys(t)
  {
    NoFilterKeepsAll(t.rows, Keys(t));
  }

  lemma {:induction false} NoFilterKeepsAll(rows: map<nat, Movie>, ks: seq<nat>)
    requires forall i :: 0 <= i < |ks| ==> ks[i] in rows
    ensures FilterIds(rows, ks, NoFilter) == ks
  {
    if ks != [] {
      NoFilterKeepsAll(rows, ks[1..]);
    }
  }

  /** The filter on one field alone. */
  function OnlyDirector(f: MovieFilter): MovieFilter { MovieFilter(f.directorId, None, None) }
  function OnlyGenre(f: MovieFilter): MovieFilter { MovieFilter(None, f.genre, None) }
  function OnlyYear(f: MovieFilter): MovieFilter { MovieFilter(None, None, f.year) }

  /** The filters combine by conjunction: a movie matches a filter exactly
      when it matches each of its fields on its own. */
  lemma MatchesIsConjunction(f: MovieFilter, m: Movie)
    ensures Matches(f, m) <==> Matches(OnlyDirector(f), m) && Matches(OnlyGenre(f), m) && Matches(OnlyYear(f), m)
  {
  }

  /** `g` filters at least as much as `f`: each field `f` filters on, `g`
      filters on with the same value. */
  predicate Narrows(g: MovieFilter, f: MovieFilter) {
    && (f.directorId.None? || g.directorId == f.directorId)
    && (f.genre.None? || g.genre == f.genre)
    && (f.year.None? || g.year == f.year)
  }

  /** Adding filters never enlarges the result: every movie listed for the
      narrower filter is listed for the wider one. */
  lemma NarrowingShrinks(t: Table<Movie>, f: MovieFilter, g: MovieFilter)
    requires Valid(t)
    requires Narrows(g, f)
    ensures forall k :: k in FindAllWithFilters(t, g) ==> k in FindAllWithFilters(t, f)
  {
    FindAllWithFiltersSpec(t, f);
    FindAllWithFiltersSpec(t, g);
  }
}

=== FILE: movie_service.dfy ===
/** `MovieService`: movie CRUD checked against the director table, the
    filtered and paged listing, and the bulk upload with its tally. */
module MovieService {
  import opened Wrappers
  import opened Table
  import opened Requests
  import opened ApiErrors
  import opened CatalogModel
  import opened MovieRepository
  import opened Paging

  datatype DirectorRef = DirectorRef(id: nat, name: string)

  datatype MovieResponse = MovieResponse(id: nat, title: string, year: int, genre: string, director: DirectorRef)

  /** `toResponseDTO`: the stored movie's fields, and the id and current name
      of its director. */
  function ToResponse(c: Catalog, id: nat): (r: MovieResponse)
    requires id in c.movies.rows && c.movies.rows[id].directorId in c.directors.rows
    ensures r.id == id
    ensures var m := c.movies.rows[id];
      r.title == m.title && r.year == m.year && r.genre == m.genre
      && r.director == DirectorRef(m.directorId, c.directors.rows[m.directorId].name)
  {
    var m := c.movies.rows[id];
    MovieResponse(id, m.title, m.year, m.genre, DirectorRef(m.directorId, c.directors.rows[m.directorId].name))
  }

  /** The movie a request describes with the looked-up director, when the
      persistence layer accepts it. */
  function Build(req: MovieRequest, directorId: nat): (r: Option<Movie>)
    ensures r.Some? <==>
      && req.title.Some? && req.year.Some? && req.genre.Some?
      && MovieEntityValid(Movie(req.title.value, req.year.value, req.genre.value, directorId))
    ensures r.Some? ==> r.value == Movie(req.title.value, req.year.value, req.genre.value, directorId)
  {
    if req.title.Some? && req.year.Some? && req.genre.Some? then
      var m := Movie(req.title.value, req.year.value, req.genre.value, directorId);
      if MovieEntityValid(m) then Some(m) else None
    else None
  }

  /** For movies the request rules as written do not cover the entity
      rules: a request they accept can be refused at persist only for a title
      over 255 characters. The corrected rules close that gap, so every
      request they accept can be persisted. */
  lemma BuildUnderRequestRules(req: MovieRequest, directorId: nat)
    ensures MovieViolations(req) == [] && Build(req, directorId).None? ==> |req.title.value| > MaxTextLength
    ensures CorrectedMovieViolations(req) == [] ==> Build(req, directorId).Some?
  {
  }

  /** `create` succeeds for a request against these directors: it names a
      stored director and describes a movie the persistence layer accepts. */
  predicate Creatable(directors: Table<Director>, req: MovieRequest) {
    && req.directorId.Some? && Find(directors, req.directorId.value).Some?
    && Build(req, req.directorId.value as nat).Some?
  }

  /** `create(dto)`: look the director up (a null id is refused by the
      repository), then store a new movie. The response shows the stored
      movie with its director's id and name. */
  function Create(c: Catalog, req: MovieRequest): (r: Outcome<MovieResponse>)
    requires Valid(c.movies)
    ensures req.directorId.None? ==> r == Outcome(c, Err(NullId))
    ensures req.directorId.Some? && Find(c.directors, req.directorId.value).None? ==>
      r == Outcome(c, Err(DirectorNotFound(DirectorNotFoundMessage)))
    ensures r.result.Ok? <==> Creatable(c.directors, req)
    ensures r.result.Err? ==> r.catalog == c
    ensures r.catalog.directors == c.directors
    ensures Valid(r.catalog.movies)
    ensures r.result.Ok? ==>
      var d := req.directorId.value as nat;
      var id := r.result.value.id;
      && id !in c.movies.rows
      && r.catalog.movies.rows == c.movies.rows[id := Movie(req.title.value, req.year.value, req.genre.value, d)]
      && r.result.value == MovieResponse(id, req.title.value, req.year.value, req.genre.value,
                                         DirectorRef(d, c.directors.rows[d].name))
  {
    match req.directorId
    case None => Outcome(c, Err(NullId))
    case Some(d) =>
      if Find(c.directors, d).None? then Outcome(c, Err(DirectorNotFound(DirectorNotFoundMessage)))
      else
        match Build(req, d)
        case None => Outcome(c, Err(ConstraintViolation))
        case Some(m) =>
          var (t, id) := Insert(c.movies, m);
          var c' := c.(movies := t);
          Outcome(c', Ok(ToResponse(c', id)))
  }

  /** `getById(id)`. */
  function GetById(c: Catalog, id: int): (r: Result<MovieResponse, ApiError>)
    requires Referential(c)
    ensures r.Err? <==> Find(c.movies, id).None?
    ensures r.Err? ==> r.error == MovieNotFound(MovieNotFoundMessage)
    ensures r.Ok? ==> r.value == ToResponse(c, id)
  {
    if Find(c.movies, id).None? then Err(MovieNotFound(MovieNotFoundMessage))
    else Ok(ToResponse(c, id))
  }

  /** `update(id, dto)`: the movie is looked up first, then the director;
      on success the movie keeps its id and takes the request's title, year,
      genre and director. */
  function Update(c: Catalog, id: int, req: MovieRequest): (r: Outcome<MovieResponse>)
    requires Valid(c.movies)
    ensures Find(c.movies, id).None? ==> r == Outcome(c, Err(MovieNotFound(MovieNotFoundMessage)))
    ensures Find(c.movies, id).Some? && req.directorId.None? ==> r == Outcome(c, Err(NullId))
    ensures Find(c.movies, id).Some? && req.directorId.Some? && Find(c.directors, req.directorId.value).None? ==>
      r == Outcome(c, Err(DirectorNotFound(DirectorNotFoundMessage)))
    ensures r.result.Ok? <==> Find(c.movies, id).Some? && Creatable(c.directors, req)
    ensures r.result.Err? ==> r.catalog == c
    ensures r.catalog.directors == c.directors
    ensures r.result.Ok? ==>
      var d := req.directorId.value as nat;
      && r.catalog.movies.rows == c.movies.rows[id := Movie(req.title.value, req.year.value, req.genre.value, d)]
      && r.catalog.movies.next == c.movies.next
      && r.result.value == MovieResponse(id, req.title.value, req.year.value, req.genre.value,
                                         DirectorRef(d, c.directors.rows[d].name))
  {
    if Find(c.movies, id).None? then Outcome(c, Err(MovieNotFound(MovieNotFoundMessage)))
    else
      match req.directorId
      case None => Outcome(c, Err(NullId))
      case Some(d) =>
        if Find(c.directors, d).None? then Outcome(c, Err(DirectorNotFound(DirectorNotFoundMessage)))
        else
          match Build(req, d)
          case None => Outcome(c, Err(ConstraintViolation))
          case Some(m) =>
            var c' := c.(movies := Put(c.movies, id, m));
            Outcome(c', Ok(ToResponse(c', id)))
  }

  /** `delete(id)`: a missing id is refused; otherwise exactly that movie is
      removed. */
  function Delete(c: Catalog, id: int): (r: Outcome<()>)
    ensures r.result.Err? <==> Find(c.movies, id).None?
    ensures r.result.Err? ==> r == Outcome(c, Err(MovieNotFound(MovieNotFoundMessage)))
    ensures r.catalog.directors == c.directors
    ensures r.result.Ok? ==>
      && r.catalog.movies.rows.Keys == c.movies.rows.Keys - {id as nat}
      && (forall k :: k in r.catalog.movies.rows ==> r.catalog.movies.rows[k] == c.movies.rows[k])
  {
    if Find(c.movies, id).None? then Outcome(c, Err(MovieNotFound(MovieNotFoundMessage)))
    else Outcome(c.(movies := Remove(c.movies, id)), Ok(()))
  }

  /** `getAll()`: one response per stored movie, in ascending id order. */
  function GetAll(c: Catalog): (r: seq<MovieResponse>)
    requires Valid(c.movies) && Referential(c)
    ensures |r| == |c.movies.rows|
    ensures forall i :: 0 <= i < |r| ==> r[i].id in c.movies.rows && r[i] == ToResponse(c, r[i].id)
    ensures forall i, j :: 0 <= i < j < |r| ==> r[i].id < r[j].id
  {
    var ks := Keys(c.movies);
    KeysCount(c.movies);
    seq(|ks|, i requires 0 <= i < |ks| => ToResponse(c, ks[i]))
  }

  /** Every stored movie is listed by `getAll`. */
  lemma GetAllComplete(c: Catalog, k: nat)
    requires Valid(c.movies) && Referential(c)
    requires k in c.movies.rows
    ensures exists i :: 0 <= i < |GetAll(c)| && GetAll(c)[i] == ToResponse(c, k)
  {
    var ks := Keys(c.movies);
    var i :| 0 <= i < |ks| && ks[i] == k;
    assert GetAll(c)[i] == ToResponse(c, k);
  }

  // ---- Listing -------------------------------------------------------------

  /** The listing request: filters, a zero-based page number and a page
      size. */
  datatype ListRequest = ListRequest(filter: MovieFilter, page: int, size: int)

  datatype MovieShort = MovieShort(id: nat, title: string, year: int)

  datatype MovieList = MovieList(list: seq<MovieShort>, totalPages: nat)

  const PageIndexMessage: string := "Page index must not be less than zero"
  const PageSizeMessage: string := "Page size must not be less than one"

  function Short(c: Catalog, id: nat): MovieShort
    requires id in c.movies.rows
  {
    MovieShort(id, c.movies.rows[id].title, c.movies.rows[id].year)
  }

  function Shorts(c: Catalog, ids: seq<nat>): (r: seq<MovieShort>)
    requires forall i :: 0 <= i < |ids| ==> ids[i] in c.movies.rows
    ensures |r| == |ids|
    ensures forall i :: 0 <= i < |r| ==> r[i] == Short(c, ids[i])
  {
    seq(|ids|, i requires 0 <= i < |ids| => Short(c, ids[i]))
  }

  /** `list(filter)`: the page request is checked (page first, then size),
      then the requested page of the matching movies is returned with the
      number of pages they fill. */
  function List(c: Catalog, req: ListRequest): (r: Result<MovieList, ApiError>)
    requires Valid(c.movies)
    ensures req.page < 0 ==> r == Err(BadPageRequest(PageIndexMessage))
    ensures req.page >= 0 && req.size < 1 ==> r == Err(BadPageRequest(PageSizeMessage))
    ensures r.Ok? <==> req.page >= 0 && req.size >= 1
    ensures r.Ok? ==>
      var ids := FindAllWithFilters(c.movies, req.filter);
      var start := req.page * req.size;
      && |r.value.list| <= req.size
      && r.value.totalPages == TotalPages(|ids|, req.size)
      && (forall i :: 0 <= i < |r.value.list| ==>
            start + i < |ids| && r.value.list[i] == Short(c, ids[start + i]))
  {
    if req.page < 0 then Err(BadPageRequest(PageIndexMessage))
    else if req.size < 1 then Err(BadPageRequest(PageSizeMessage))
    else
      var ids := FindAllWithFilters(c.movies, req.filter);
      var start: nat := req.page * req.size;
      var page := PageOf(ids, req.page, req.size);
      assert page == Window(ids, start, req.size);
      Ok(MovieList(Shorts(c, page), TotalPages(|ids|, req.size)))
  }

  /** Paging loses no match: the match at position `j` of the query result
      is item `j % size` of page `j / size`, and that page is one of the
      `totalPages` pages. */
  lemma EveryMatchOnItsPage(c: Catalog, f: MovieFilter, size: int, j: int)
    requires Valid(c.movies) && size >= 1
    requires 0 <= j < |FindAllWithFilters(c.movies, f)|
    ensures var r := List(c, ListRequest(f, j / size, size));
      && r.Ok?
      && j / size < r.value.totalPages
      && j % size < |r.value.list|
      && r.value.list[j % size] == Short(c, FindAllWithFilters(c.movies, f)[j])
  {
    PageOfPosition(FindAllWithFilters(c.movies, f), size, j);
  }

  /** A page past the last one is empty. */
  lemma PastLastPageEmpty(c: Catalog, req: ListRequest)
    requires Valid(c.movies) && req.page >= 0 && req.size >= 1
    ensures List(c, req).Ok?
    ensures req.page >= List(c, req).value.totalPages ==> List(c, req).value.list == []
  {
    if req.page >= TotalPages(|FindAllWithFilters(c.movies, req.filter)|, req.size) {
      PastLastPage(FindAllWithFilters(c.movies, req.filter), req.page, req.size);
    }
  }

  // ---- Upload --------------------------------------------------------------

  /** What the streaming parser finds: a first token that is not `[`, input
      that cannot be read as JSON at all, or the objects at the head of an
      array (the loop stops at the first token that does not open an object)
      followed by a clean stop or by a parse error. */
  datatype UploadInput =
    | NotAnArray
    | Unreadable
    | Objects(items: seq<MovieRequest>, brokenAfter: bool)

  datatype UploadTally = UploadTally(success: nat, failed: nat)

  const ExpectedArrayMessage: string := "Expected JSON array"
  const InvalidJsonMessage: string := "Upload failed: invalid JSON"

  /** The items `create` accepts against these directors. */
  function CountCreatable(directors: Table<Director>, items: seq<MovieRequest>): (n: nat)
    ensures n <= |items|
  {
    if items == [] then 0
    else (if Creatable(directors, items[0]) then 1 else 0) + CountCreatable(directors, items[1..])
  }

  /** The loop of `upload`: `create` on each item in turn, counting the
      ones that return and the ones that throw. A failure does not stop the
      loop, and each successful item stays stored. */
  function CreateEach(c: Catalog, items: seq<MovieRequest>): (r: (Catalog, UploadTally))
    requires Valid(c.movies)
    ensures r.0.directors == c.directors
    ensures Valid(r.0.movies)
    ensures r.1.success + r.1.failed == |items|
    ensures r.1.success == CountCreatable(c.directors, items)
    ensures |r.0.movies.rows| == |c.movies.rows| + r.1.success
    ensures forall k :: k in c.movies.rows ==> k in r.0.movies.rows && r.0.movies.rows[k] == c.movies.rows[k]
    decreases |items|
  {
    if items == [] then (c, UploadTally(0, 0))
    else
      var first := Create(c, items[0]);
      var (c', t) := CreateEach(first.catalog, items[1..]);
      if first.result.Ok? then (c', t.(success := t.success + 1))
      else (c', t.(failed := t.failed + 1))
  }

  /** `upload(stream)`: a stream that does not open with `[` is refused with
      "Expected JSON array"; a read error is refused with "Upload failed:
      invalid JSON", after the items before it have been created; otherwise
      the tally of created and failed items. */
  function Upload(c: Catalog, input: UploadInput): (r: Outcome<UploadTally>)
    requires Valid(c.movies)
    ensures input.NotAnArray? ==> r == Outcome(c, Err(UploadFailed(ExpectedArrayMessage)))
    ensures input.Unreadable? ==> r == Outcome(c, Err(UploadFailed(InvalidJsonMessage)))
    ensures input.Objects? ==> r.catalog == CreateEach(c, input.items).0
    ensures input.Objects? && input.brokenAfter ==> r.result == Err(UploadFailed(InvalidJsonMessage))
    ensures r.result.Ok? <==> input.Objects? && !input.brokenAfter
    ensures r.result.Ok? ==>
      && r.result.value.success + r.result.value.failed == |input.items|
      && r.result.value.success == CountCreatable(c.directors, input.items)
  {
    match input
    case NotAnArray => Outcome(c, Err(UploadFailed(ExpectedArrayMessage)))
    case Unreadable => Outcome(c, Err(UploadFailed(InvalidJsonMessage)))
    case Objects(items, brokenAfter) =>
      var (c', tally) := CreateEach(c, items);
      if brokenAfter then Outcome(c', Err(UploadFailed(InvalidJsonMessage)))
      else Outcome(c', Ok(tally))
  }
}

=== FILE: paging.dfy ===
/** Page arithmetic of the listing: a zero-based page number and a page size
    cut a result sequence into consecutive pages, and the page count is the
    number of pages the whole result fills. */
module Paging {

  /** Multiplying by a non-negative factor keeps order. */
  lemma {:induction false} MulMonotone(a: int, b: int, s: nat)
    requires a <= b
    ensures a * s <= b * s
    decreases b - a
  {
    if a < b {
      MulMonotone(a, b - 1, s);
      assert (b - 1) * s + s == b * s;
    }
  }

  /** The number of pages `total` items fill: the least `n` with
      `n * size >= total`. */
  function TotalPages(total: nat, size: nat): (n: nat)
    requires size > 0
    ensures n * size >= total
    ensures n == 0 || (n - 1) * size < total
  {
    var x := total + size - 1;
    var q := x / size;
    assert x == q * size + x % size && 0 <= x % size < size;
    assert (q - 1) * size == q * size - size;
    q
  }

  /** The (at most) `size` items from position `start` on. */
  function Window<T>(items: seq<T>, start: nat, size: nat): (r: seq<T>)
    ensures |r| <= size
    ensures forall i :: 0 <= i < |r| ==> start + i < |items| && r[i] == items[start + i]
    ensures start < |items| ==> |r| == if |items| - start < size then |items| - start else size
    ensures start >= |items| ==> r == []
  {
    if start >= |items| then []
    else if start + size <= |items| then items[start..start + size]
    else items[start..]
  }

  /** The items on page `page`, `size` to a page. */
  function PageOf<T>(items: seq<T>, page: nat, size: nat): seq<T> {
    Window(items, page * size, size)
  }

  /** Position `j` of `total` lies on page `j / size`, at offset `j % size`,
      and that page is one of the counted ones. */
  lemma PagePosition(total: nat, size: nat, j: int)
    requires size > 0 && 0 <= j < total
    ensures (j / size) * size + j % size == j && 0 <= j % size < size
    ensures 0 <= j / size < TotalPages(total, size)
  {
    var p, o := j / size, j % size;
    assert j == p * size + o && 0 <= o < size;
    var n := TotalPages(total, size);
    if p >= n {
      MulMonotone(n, p, size);
      assert false;
    }
  }

  /** Item `j` of the result lies on page `j / size`, at `j % size`, and that
      page is one of the counted ones. */
  lemma PageOfPosition<T>(items: seq<T>, size: nat, j: int)
    requires size > 0 && 0 <= j < |items|
    ensures 0 <= j / size < TotalPages(|items|, size)
    ensures 0 <= j % size < |PageOf(items, j / size, size)|
    ensures PageOf(items, j / size, size)[j % size] == items[j]
  {
    PagePosition(|items|, size, j);
    var start, o := (j / size) * size, j % size;
    var page := Window(items, start, size);
    assert start + o == j;
    assert o < |page|;
  }

  /** A page at or past the page count is empty. */
  lemma PastLastPage<T>(items: seq<T>, page: nat, size: nat)
    requires size > 0 && page >= TotalPages(|items|, size)
    ensures PageOf(items, page, size) == []
  {
    MulMonotone(TotalPages(|items|, size), page, size);
    assert page * size >= |items|;
  }
}

=== FILE: requests.dfy ===
/** The request bodies of the catalog API and their bean-validation rules
    (`MovieRequestDTO`, `DirectorRequestDTO`). Every field is a nullable
    reference in the source, so every field is an `Option` here. A rule
    produces a violation carrying Hibernate Validator's message for it; a
    request is accepted when it produces none. */
module Requests {
  import opened Wrappers

  datatype MovieRequest = MovieRequest(
    title: Option<string>,
    year: Option<int>,
    genre: Option<string>,
    directorId: Option<int>)

  datatype DirectorRequest = DirectorRequest(name: Option<string>, country: Option<string>)

  /** The bounds on a movie's year, inclusive. */
  const MinYear: int := 1890
  const MaxYear: int := 2115

  /** The longest director name (and, at the entity, movie title) allowed. */
  const MaxTextLength: int := 255

  /** What `trim()` would reduce to the empty string: every character at or
      below U+0020. */
  predicate Blank(s: string) {
    forall i :: 0 <= i < |s| ==> s[i] <= ' '
  }

  /** `@NotBlank`: present, and not blank. */
  predicate NotBlank(s: Option<string>) {
    s.Some? && !Blank(s.value)
  }

  /** One failed constraint: the field and the message reported for it. */
  datatype Violation = Violation(field: string, message: string)

  const NotBlankMessage: string := "must not be blank"
  const NotNullMessage: string := "must not be null"
  const MinYearMessage: string := "must be greater than or equal to 1890"
  const MaxYearMessage: string := "must be less than or equal to 2115"
  const NameMandatoryMessage: string := "Director name is mandatory"
  const SizeMessage: string := "size must be between 0 and 255"

  /** The violations of the `year` field: `@NotNull`, and `@Min`/`@Max`,
      which accept an absent value. */
  function YearViolations(year: Option<int>): (v: seq<Violation>)
    ensures |v| <= 1
    ensures v == [] <==> year.Some? && MinYear <= year.value <= MaxYear
  {
    match year
    case None => [Violation("year", NotNullMessage)]
    case Some(y) =>
      if y < MinYear then [Violation("year", MinYearMessage)]
      else if y > MaxYear then [Violation("year", MaxYearMessage)]
      else []
  }

  /** Every violation of a movie request, one per field at most, in field
      order. */
  function MovieViolations(r: MovieRequest): (v: seq<Violation>)
    ensures |v| <= 4
  {
    (if NotBlank(r.title) then [] else [Violation("title", NotBlankMessage)])
    + YearViolations(r.year)
    + (if NotBlank(r.genre) then [] else [Violation("genre", NotBlankMessage)])
    + (if r.directorId.Some? then [] else [Violation("directorId", NotNullMessage)])
  }

  /** The movie request rules with the title bounded as the `Movie` entity
      bounds it (`@Size(max = 255)`), so that every request they accept can
      also be persisted. */
  function CorrectedMovieViolations(r: MovieRequest): (v: seq<Violation>)
    ensures v == [] <==> MovieViolations(r) == [] && |r.title.value| <= MaxTextLength
  {
    MovieViolations(r)
    + (if r.title.Some? && |r.title.value| > MaxTextLength then [Violation("title", SizeMessage)] else [])
  }

  /** Every violation of a director request: `@NotBlank` with its own
      message, and `@Size(max = 255)`, which accepts an absent value. The
      country carries no constraint. */
  function DirectorViolations(r: DirectorRequest): (v: seq<Violation>)
    ensures |v| <= 2
    ensures forall i :: 0 <= i < |v| ==> v[i].field == "name"
  {
    (if NotBlank(r.name) then [] else [Violation("name", NameMandatoryMessage)])
    + (if r.name.Some? && |r.name.value| > MaxTextLength then [Violation("name", SizeMessage)] else [])
  }

  /** The messages of a list of violations, in order. */
  function Messages(v: seq<Violation>): (m: seq<string>)
    ensures |m| == |v|
    ensures forall i :: 0 <= i < |v| ==> m[i] == v[i].message
  {
    seq(|v|, i requires 0 <= i < |v| => v[i].message)
  }

  /** Some character survives trimming. */
  predicate HasVisibleChar(s: string) {
    exists i :: 0 <= i < |s| && s[i] > ' '
  }

  /** A well-formed movie request, stated directly: a title and a genre with
      something visible in them, a year from 1890 to 2115, and a director
      id. */
  predicate ValidMovieRequest(r: MovieRequest) {
    && r.title.Some? && HasVisibleChar(r.title.value)
    && r.year.Some? && MinYear <= r.year.value <= MaxYear
    && r.genre.Some? && HasVisibleChar(r.genre.value)
    && r.directorId.Some?
  }

  /** A well-formed director request: a name with something visible in it and
      at most 255 characters long; any country or none. */
  predicate ValidDirectorRequest(r: DirectorRequest) {
    r.name.Some? && HasVisibleChar(r.name.value) && |r.name.value| <= MaxTextLength
  }

  lemma NotBlankIsVisible(s: Option<string>)
    ensures NotBlank(s) <==> s.Some? && HasVisibleChar(s.value)
  {
  }

  /** The validator accepts a movie request exactly when it is well formed. */
  lemma MovieViolationsEmptyIffValid(r: MovieRequest)
    ensures MovieViolations(r) == [] <==> ValidMovieRequest(r)
  {
    NotBlankIsVisible(r.title);
    NotBlankIsVisible(r.genre);
  }

  /** The validator accepts a director request exactly when it is well
      formed. */
  lemma DirectorViolationsEmptyIffValid(r: DirectorRequest)
    ensures DirectorViolations(r) == [] <==> ValidDirectorRequest(r)
  {
    NotBlankIsVisible(r.name);
  }

  /** Each rejected field is reported with its own message: a missing or
      blank title, a missing, too early or too late year, a missing or blank
      genre, a missing director id. */
  lemma {:induction false} MovieViolationCauses(r: MovieRequest)
    ensures Violation("title", NotBlankMessage) in MovieViolations(r) <==> !NotBlank(r.title)
    ensures Violation("year", NotNullMessage) in MovieViolations(r) <==> r.year.None?
    ensures Violation("year", MinYearMessage) in MovieViolations(r) <==> r.year.Some? && r.year.value < MinYear
    ensures Violation("year", MaxYearMessage) in MovieViolations(r) <==> r.year.Some? && r.year.value > MaxYear
    ensures Violation("genre", NotBlankMessage) in MovieViolations(r) <==> !NotBlank(r.genre)
    ensures Violation("directorId", NotNullMessage) in MovieViolations(r) <==> r.directorId.None?
  {
    var t := if NotBlank(r.title) then [] else [Violation("title", NotBlankMessage)];
    var y := YearViolations(r.year);
    var g := if NotBlank(r.genre) then [] else [Violation("genre", NotBlankMessage)];
    var d := if r.directorId.Some? then [] else [Violation("directorId", NotNullMessage)];
    assert MovieViolations(r) == t + y + g + d;
    assert forall x :: x in MovieViolations(r) <==> x in t || x in y || x in g || x in d;
  }

  /** A name that is missing or blank is reported as mandatory, and one
      longer than 255 characters as too long; a blank name of more than 255
      characters gets both. */
  lemma {:induction false} DirectorViolationCauses(r: DirectorRequest)
    ensures Violation("name", NameMandatoryMessage) in DirectorViolations(r) <==> !NotBlank(r.name)
    ensures Violation("name", SizeMessage) in DirectorViolations(r) <==>
      r.name.Some? && |r.name.value| > MaxTextLength
  {
    var b := if NotBlank(r.name) then [] else [Violation("name", NameMandatoryMessage)];
    var s := if r.name.Some? && |r.name.value| > MaxTextLength then [Violation("name", SizeMessage)] else [];
    assert DirectorViolations(r) == b + s;
    assert forall x :: x in DirectorViolations(r) <==> x in b || x in s;
  }

  /** A request whose only fault is a year of 1800 is refused for that year
      alone; likewise a year of 2200. */
  lemma OutOfRangeYears(title: string, genre: string, directorId: int)
    requires HasVisibleChar(title) && HasVisibleChar(genre)
    ensures MovieViolations(MovieRequest(Some(title), Some(1800), Some(genre), Some(directorId)))
      == [Violation("year", MinYearMessage)]
    ensures MovieViolations(MovieRequest(Some(title), Some(2200), Some(genre), Some(directorId)))
      == [Violation("year", MaxYearMessage)]
  {
    NotBlankIsVisible(Some(title));
    NotBlankIsVisible(Some(genre));
  }

  /** A visible name of 300 characters is refused as too long, and only for
      that. */
  lemma OverlongName(name: string, country: Option<string>)
    requires |name| == 300 && HasVisibleChar(name)
    ensures DirectorViolations(DirectorRequest(Some(name), country)) == [Violation("name", SizeMessage)]
  {
    NotBlankIsVisible(Some(name));
  }
}

=== FILE: retry_scheduler.dfy ===
/** `RetryScheduler.retryFailedEmails`: the periodic sweep over FAILED
    records. Each record returned by the status query is handled in turn:
    one that has used up its attempts is cancelled without being sent again;
    any other gets exactly one more delivery attempt. The timer that fires the
    sweep is not modelled; a sweep is an explicit call. */
module RetryScheduler {
  import opened Wrappers
  import opened Table
  import opened EmailLogModel
  import opened EmailStore
  import opened EmailSender

  /** The attempt ceiling. */
  const MaxAttempts: int := 10

  /** The error text written on cancellation. */
  const CancelMessage: string := "Max retry attempts reached. Stopping."

  /** The cancellation transition: only status and error message change. */
  function CancelledLog(log: EmailLog): (c: EmailLog)
    ensures c.status == Cancelled && c.errorMessage == Some(CancelMessage)
    ensures c == log.(status := c.status, errorMessage := c.errorMessage)
  {
    log.(status := Cancelled, errorMessage := Some(CancelMessage))
  }

  /** What one handled record becomes when its save succeeds. */
  function Next(log: EmailLog, env: Env): EmailLog {
    if log.attemptCount >= MaxAttempts then CancelledLog(log)
    else Attempted(log, env.transport(Counted(log, env.now)), env.now)
  }

  /** The body of the loop for one record: cancel and save, or `trySend`. */
  function Handle(s: Store, log: EmailLog, env: Env): (r: AttemptRun)
    requires WellFormed(s)
    requires log.id.Some?
    ensures WellFormed(r.store)
    ensures r.storeFailed ==> r.store == s
    ensures !r.storeFailed ==> r.store.rows == s.rows[log.id.value := Next(log, env)]
    ensures !r.storeFailed <==> env.saves(Next(log, env))
    // a record at the ceiling is saved once and never handed to the transport
    ensures log.attemptCount >= MaxAttempts ==>
      r.effects == (if r.storeFailed then [] else [Stored(CancelledLog(log))])
    // any other record gets exactly one send, and no save besides trySend's own
    ensures log.attemptCount < MaxAttempts ==>
      r.effects == [Mailed(MessageFor(log), log.id)] + (if r.storeFailed then [] else [Stored(Next(log, env))])
  {
    if log.attemptCount >= MaxAttempts then
      var cancelled := CancelledLog(log);
      if env.saves(cancelled) then
        var (s', saved) := Save(s, cancelled);
        AttemptRun(s', saved, [Stored(saved)], false)
      else
        AttemptRun(s, cancelled, [], true)
    else
      var a := TrySend(s, log, env);
      assert !a.storeFailed ==> a.store.rows == s.rows[log.id.value := Next(log, env)] by {
        if !a.storeFailed {
          assert a.store.rows.Keys == s.rows.Keys + {log.id.value};
        }
      }
      a
  }

  /** The outcome of a sweep: the store afterwards, the effects, and whether
      a store failure was thrown out of it (ending the sweep early). */
  datatype SweepRun = SweepRun(store: Store, effects: seq<Effect>, storeFailed: bool)

  /** The number of messages handed to the transport. */
  function CountMailed(effects: seq<Effect>): nat {
    if effects == [] then 0
    else (if effects[0].Mailed? then 1 else 0) + CountMailed(effects[1..])
  }

  lemma {:induction false} CountMailedAppend(a: seq<Effect>, b: seq<Effect>)
    ensures CountMailed(a + b) == CountMailed(a) + CountMailed(b)
  {
    if a != [] {
      var ab := a + b;
      assert ab[0] == a[0] && ab[1..] == a[1..] + b;
      CountMailedAppend(a[1..], b);
      assert CountMailed(ab) == (if a[0].Mailed? then 1 else 0) + CountMailed(ab[1..]);
    } else {
      assert a + b == b;
    }
  }

  /** The number of records below the ceiling: those the sweep may send. */
  function CountRetryable(logs: seq<EmailLog>): nat {
    if logs == [] then 0
    else (if logs[0].attemptCount < MaxAttempts then 1 else 0) + CountRetryable(logs[1..])
  }

  /** The loop over the query result, in order; a store failure stops it. */
  function RetryAll(s: Store, logs: seq<EmailLog>, env: Env): (r: SweepRun)
    requires WellFormed(s)
    requires forall i :: 0 <= i < |logs| ==> logs[i].id.Some?
    ensures WellFormed(r.store)
    ensures Healthy(env) ==> !r.storeFailed
    decreases |logs|
  {
    if logs == [] then SweepRun(s, [], false)
    else
      var a := Handle(s, logs[0], env);
      if a.storeFailed then
        SweepRun(a.store, a.effects, true)
      else
        var rest := RetryAll(a.store, logs[1..], env);
        SweepRun(rest.store, a.effects + rest.effects, rest.storeFailed)
  }

  /** One handled record mails once if it is below the ceiling and not at
      all otherwise. */
  lemma HandleMails(s: Store, log: EmailLog, env: Env)
    requires WellFormed(s) && log.id.Some?
    ensures CountMailed(Handle(s, log, env).effects) == if log.attemptCount < MaxAttempts then 1 else 0
  {
    var a := Handle(s, log, env);
    if log.attemptCount < MaxAttempts {
      CountMailedAppend([Mailed(MessageFor(log), log.id)], a.effects[1..]);
      assert a.effects == [Mailed(MessageFor(log), log.id)] + a.effects[1..];
    }
  }

  /** The loop sends at most one message per record below the ceiling, and
      exactly one each when the store never fails. */
  lemma {:induction false} RetryAllMails(s: Store, logs: seq<EmailLog>, env: Env)
    requires WellFormed(s)
    requires forall i :: 0 <= i < |logs| ==> logs[i].id.Some?
    ensures CountMailed(RetryAll(s, logs, env).effects) <= CountRetryable(logs)
    ensures Healthy(env) ==> CountMailed(RetryAll(s, logs, env).effects) == CountRetryable(logs)
    decreases |logs|
  {
    if logs != [] {
      var a := Handle(s, logs[0], env);
      HandleMails(s, logs[0], env);
      if !a.storeFailed {
        var rest := RetryAll(a.store, logs[1..], env);
        RetryAllMails(a.store, logs[1..], env);
        CountMailedAppend(a.effects, rest.effects);
      }
    }
  }

  /** `retryFailedEmails()`: one sweep over every FAILED record. */
  function RetryFailedEmails(s: Store, env: Env): (r: SweepRun)
    requires WellFormed(s)
    ensures WellFormed(r.store)
    ensures Healthy(env) ==> !r.storeFailed
  {
    RetryAll(s, FindByStatus(s, Failed), env)
  }

  /** A sweep sends at most one message per FAILED record below the ceiling,
      and exactly one each when the store never fails. */
  lemma SweepMails(s: Store, env: Env)
    requires WellFormed(s)
    ensures CountMailed(RetryFailedEmails(s, env).effects) <= CountRetryable(FindByStatus(s, Failed))
    ensures Healthy(env) ==>
      CountMailed(RetryFailedEmails(s, env).effects) == CountRetryable(FindByStatus(s, Failed))
  {
    RetryAllMails(s, FindByStatus(s, Failed), env);
  }
}

=== FILE: table.dfy ===
/** A repository table: rows keyed by store-assigned ids, with an identity
    sequence `next` that hands out a fresh id on every insertion. Both the
    relational repositories of the catalog and the document index of the
    email service are modelled by it. Ids are never reused. */
module Table {
  import opened Wrappers

  datatype Table<V> = Table(rows: map<nat, V>, next: nat)

  /** Every stored id was handed out by the sequence. */
  predicate Valid<V>(t: Table<V>) {
    forall k :: k in t.rows ==> k < t.next
  }

  /** An empty table whose first id is `first`. */
  function Empty<V>(first: nat): (t: Table<V>)
    ensures Valid(t)
    ensures |t.rows| == 0
  {
    Table(map[], first)
  }

  /** `findById`: the row stored under `id`, if any. Ids that cannot be
      stored (negative ones) are simply not found. */
  function Find<V>(t: Table<V>, id: int): (r: Option<V>)
    ensures r.Some? <==> id >= 0 && id in t.rows
    ensures r.Some? ==> r.value == t.rows[id]
  {
    if id >= 0 && id in t.rows then Some(t.rows[id]) else None
  }

  /** `save` of an entity that already has an id: overwrites the row (or
      creates it), and keeps the sequence ahead of every stored id. */
  function Put<V>(t: Table<V>, k: nat, v: V): (t': Table<V>)
    ensures k in t'.rows && t'.rows[k] == v
    ensures forall j :: j in t.rows && j != k ==> j in t'.rows && t'.rows[j] == t.rows[j]
    ensures forall j :: j in t'.rows ==> j == k || j in t.rows
    ensures t.next <= t'.next
    ensures Valid(t) ==> Valid(t')
  {
    Table(t.rows[k := v], if k < t.next then t.next else k + 1)
  }

  /** `save` of a new entity: stores it under a fresh id and returns that id. */
  function Insert<V>(t: Table<V>, v: V): (r: (Table<V>, nat))
    requires Valid(t)
    ensures r.1 !in t.rows
    ensures r.0.rows == t.rows[r.1 := v]
    ensures |r.0.rows| == |t.rows| + 1
    ensures Valid(r.0)
  {
    (Put(t, t.next, v), t.next)
  }

  /** `deleteById`: removes exactly the row under `k`. */
  function Remove<V>(t: Table<V>, k: nat): (t': Table<V>)
    ensures t'.rows.Keys == t.rows.Keys - {k}
    ensures forall j :: j in t'.rows ==> t'.rows[j] == t.rows[j]
    ensures Valid(t) ==> Valid(t')
  {
    Table(t.rows - {k}, t.next)
  }

  /** Reads see writes: `findById` after `save` of an id finds the saved
      row there, after `save` of a new entity finds it under the id handed
      out, after `deleteById` finds nothing there, and elsewhere finds what
      it found before. */
  lemma FindAfterWrites<V>(t: Table<V>, k: nat, v: V, id: int)
    requires Valid(t)
    ensures Find(Put(t, k, v), id) == if id == k then Some(v) else Find(t, id)
    ensures Find(Insert(t, v).0, id) == if id == Insert(t, v).1 then Some(v) else Find(t, id)
    ensures Find(Remove(t, k), id) == if id == k then None else Find(t, id)
  {
  }

  /** The stored ids below `n`, in ascending order. */
  function KeysBelow<V>(rows: map<nat, V>, n: nat): (ks: seq<nat>)
    ensures forall i :: 0 <= i < |ks| ==> ks[i] in rows && ks[i] < n
    ensures forall k :: k in rows && k < n ==> k in ks
    ensures forall i, j :: 0 <= i < j < |ks| ==> ks[i] < ks[j]
  {
    if n == 0 then []
    else
      var prefix := KeysBelow(rows, n - 1);
      if n - 1 in rows then prefix + [n - 1] else prefix
  }

  /** The ids of a table in repository order: every stored id exactly once,
      ascending (identity ids grow with insertion, so this is also insertion
      order). */
  function Keys<V>(t: Table<V>): (ks: seq<nat>)
    requires Valid(t)
    ensures forall i :: 0 <= i < |ks| ==> ks[i] in t.rows
    ensures forall k :: k in t.rows ==> k in ks
    ensures forall i, j :: 0 <= i < j < |ks| ==> ks[i] < ks[j]
  {
    KeysBelow(t.rows, t.next)
  }

  /** A strictly increasing sequence lists its elements once each, so the
      ids of a table are as many as its rows. */
  lemma {:induction false} KeysCount<V>(t: Table<V>)
    requires Valid(t)
    ensures |Keys(t)| == |t.rows|
  {
    var ks := Keys(t);
    DistinctCount(ks);
    assert (set i | 0 <= i < |ks| :: ks[i]) == t.rows.Keys;
  }

  lemma {:induction false} DistinctCount(ks: seq<nat>)
    requires forall i, j :: 0 <= i < j < |ks| ==> ks[i] < ks[j]
    ensures |set i | 0 <= i < |ks| :: ks[i]| == |ks|
  {
    if ks != [] {
      var init := ks[..|ks| - 1];
      DistinctCount(init);
      var s := set i | 0 <= i < |init| :: init[i];
      assert (set i | 0 <= i < |ks| :: ks[i]) == s + {ks[|ks| - 1]};
      assert ks[|ks| - 1] !in s;
    }
  }
}

=== FILE: text.dfy ===
/** The text the report is made of: integers printed in decimal (`%d`), and
    lines, each ended by the line separator, taken here to be "\n". */
module Text {

  predicate IsDigit(c: char) {
    '0' <= c <= '9'
  }

  function DigitChar(d: int): (c: char)
    requires 0 <= d < 10
    ensures IsDigit(c) && c as int - '0' as int == d
  {
    ('0' as int + d) as char
  }

  /** The decimal digits of `n`, most significant first, without leading
      zeros. */
  function NatToDecimal(n: nat): (s: string)
    ensures |s| >= 1
    ensures forall i :: 0 <= i < |s| ==> IsDigit(s[i])
    decreases n
  {
    if n < 10 then [DigitChar(n)] else NatToDecimal(n / 10) + [DigitChar(n % 10)]
  }

  /** `%d` of an integer: a minus sign before the digits of a negative one. */
  function IntToDecimal(x: int): (s: string)
    ensures |s| >= 1
    ensures forall i :: 0 <= i < |s| ==> IsDigit(s[i]) || (i == 0 && s[i] == '-')
    ensures s[0] == '-' <==> x < 0
  {
    if x < 0 then "-" + NatToDecimal(-x) else NatToDecimal(x)
  }

  /** The value of a string of decimal digits. */
  function DigitsValue(s: string): nat
    requires forall i :: 0 <= i < |s| ==> IsDigit(s[i])
  {
    if s == [] then 0
    else
      var last := s[|s| - 1];
      assert IsDigit(last);
      DigitsValue(s[..|s| - 1]) * 10 + (last as int - '0' as int)
  }

  /** Printing in decimal loses nothing: the digits read back as the
      number. */
  lemma {:induction false} DecimalRoundTrip(n: nat)
    ensures DigitsValue(NatToDecimal(n)) == n
    decreases n
  {
    if n >= 10 {
      var s := NatToDecimal(n);
      DecimalRoundTrip(n / 10);
      assert s[..|s| - 1] == NatToDecimal(n / 10);
    }
  }

  predicate NoNewline(s: string) {
    forall i :: 0 <= i < |s| ==> s[i] != '\n'
  }

  /** Each line followed by the line separator: what `println` and a format
      ending in `%n` write, one line after another. */
  function JoinLines(lines: seq<string>): (s: string)
    ensures |s| >= |lines|
  {
    if lines == [] then [] else lines[0] + "\n" + JoinLines(lines[1..])
  }

  /** The length of the first line: the position of the first line
      separator, or the whole string when there is none. */
  function LineEnd(s: string): (n: nat)
    ensures n <= |s|
    ensures forall i :: 0 <= i < n ==> s[i] != '\n'
    ensures n < |s| ==> s[n] == '\n'
  {
    if s == [] || s[0] == '\n' then 0 else 1 + LineEnd(s[1..])
  }

  /** The lines of a text, without their separators; a last line without a
      separator still counts. */
  function SplitLines(s: string): seq<string>
    decreases |s|
  {
    if s == [] then []
    else
      var n := LineEnd(s);
      if n == |s| then [s] else [s[..n]] + SplitLines(s[n + 1..])
  }

  /** Lines without separators inside them are read back exactly as they
      were written. */
  lemma {:induction false} SplitJoin(lines: seq<string>)
    requires forall i :: 0 <= i < |lines| ==> NoNewline(lines[i])
    ensures SplitLines(JoinLines(lines)) == lines
  {
    if lines != [] {
      var s := JoinLines(lines);
      var rest := JoinLines(lines[1..]);
      assert s == lines[0] + "\n" + rest;
      var n := LineEnd(s);
      assert s[|lines[0]|] == '\n';
      assert n == |lines[0]|;
      assert s[..n] == lines[0];
      assert s[n + 1..] == rest;
      SplitJoin(lines[1..]);
    }
  }

  /** The same, for a first line followed by the others. */
  lemma SplitJoinCons(first: string, others: seq<string>)
    requires NoNewline(first)
    requires forall i :: 0 <= i < |others| ==> NoNewline(others[i])
    ensures SplitLines(JoinLines([first] + others)) == [first] + others
  {
    var lines := [first] + others;
    forall i | 0 <= i < |lines|
      ensures NoNewline(lines[i])
    {
      if i > 0 {
        assert lines[i] == others[i - 1];
      }
    }
    SplitJoin(lines);
  }
}

=== FILE: wrappers.dfy ===
/** Option and Result, the model's stand-ins for Java's nullable references and
    for exceptions thrown out of a service call. */
module Wrappers {

  /** A value that may be absent, as a nullable Java reference. */
  datatype Option<+T> = None | Some(value: T) {

    /** The value, or `default` when absent. */
    function GetOr(default: T): T {
      match this
      case Some(v) => v
      case None => default
    }
  }

  /** The outcome of a call that returns a value or throws. */
  datatype Result<+R, +E> = Ok(value: R) | Err(error: E)
}
